=== FILE: README.md ===
# Expense Tracker, modelled in Dafny

A model of the Java console expense tracker. The program keeps a ledger of
transactions. Each transaction has a date, an amount, a category and an
income/expense flag. The program offers a six-entry menu:

1. add an income;
2. add an expense;
3. show a per-month summary;
4. load transactions from a CSV file;
5. save the ledger to a CSV file;
6. exit.

## How the model works

- **Pure functions over a world.** `Tracker.World` is the ledger together with a
  file system. The file system maps paths to a regular file (its lines) or a
  directory.
- **The console.** Console input is the finite sequence of lines still unread.
  `Input.FirstAccepted` models every "retry until valid" loop. When the input
  runs out, `Scanner.nextLine` would throw. The model reports this as the halt
  reason `InputExhausted`.
- **Library parsers.** These are parameters (`Tracker.Env`, `Csv.Readers`) of
  type `string -> Option<_>`, where `None` stands for the exception the parser
  throws. There are four:
  - `Integer.parseInt`;
  - `LocalDate.parse` with the interactive `yyyy-MM-dd` pattern;
  - `LocalDate.parse` with the `dd-MM-yyyy` pattern used when loading;
  - `Double.parseDouble`.
- **Java string functions** are modelled as the program uses them (module `Text`):
  - `trim` removes chars up to U+0020;
  - `isBlank` tests `Character.isWhitespace`;
  - `split(",")` drops trailing empty fields and returns the whole text when it
    has no comma;
  - ASCII `toLowerCase` and `equalsIgnoreCase`;
  - `endsWith`.
- **Amounts** are whole cents. Saving writes an amount the way `%.2f` does
  (module `Money`).
- **Dates** are saved in the ISO form `LocalDate.toString` produces (module
  `Dates`).

### The save and load formats disagree

Save writes dates in the ISO format (`2024-03-15`). Load reads them with the
`dd-MM-yyyy` pattern. The model proves the consequence:

- `Csv.SaveThenLoadAborts`: loading a non-empty ledger that the program itself
  saved stops at the first line. Nothing is appended and no count is reported.
- `Csv.SaveThenLoadRoundTrip`: with a date reader for the format that save
  writes, the round trip does hold.

The load in the model takes its date reader as a parameter (`Csv.Readers`,
filled from `Tracker.Env.parseLoadDate`). The as-written program is the model
with a `dd-MM-yyyy` reader. The corrected program is the same model with a
reader for the ISO text that save writes: `Dates.ReadIso`, which provably
inverts `Dates.IsoText`, together with `Money.ReadCents` (`Csv.SaveFormat`).
`Money.ReadCents` stands in for `Double.parseDouble`, which reads the `%.2f` text
back exactly; a corrected Java program would keep `parseDouble` and change only
the date pattern. The finding is listed under "## Findings".

## Model

| member | source | states |
|---|---|---|
| Tracker.ActionOf | tracker/ExpenseTracker.java:22-30 | a choice is dispatched to an operation exactly when it lies in 1..6; every other choice is invalid |
| Tracker.DispatchMatchesMenu | tracker/ExpenseTracker.java:22-30 | dispatch and the menu numbering are inverse: each of the six actions is reached by exactly its own number |
| Tracker.UnparseableChoiceIsInvalid | tracker/ExpenseTracker.java:45-51 | a menu line that does not parse as an integer leads to the invalid-choice branch |
| Tracker.Dispatch | tracker/ExpenseTracker.java:22-30 | each menu case runs its own operation on the lines after the choice: 1 and 2 add an income or an expense, 3 shows the summary of the current ledger, 4 loads, 5 saves, 6 stops with `Exited`, and anything else prints the invalid-choice message and changes nothing; only save touches files and save never touches the ledger |
| Tracker.ReadEntry | tracker/ExpenseTracker.java:53-69 | the three prompts of an add flow answer on three increasing lines and give an entry with a positive amount, a category from the matching list and the requested flag |
| Tracker.ReadEntryAnswers | tracker/ExpenseTracker.java:53-69 | the date, amount and category come from the first line each prompt accepts, counting from the line after the previous prompt's answer; every line in between is refused |
| Tracker.ReadEntryOfAnswers | tracker/ExpenseTracker.java:53-69 | conversely, whenever three such answering lines exist, the add flow reads exactly their three values at exactly those lines |
| Tracker.ReadEntryRunsOut | tracker/ExpenseTracker.java:53-69 | the add flow fails exactly when the date prompt, or the amount prompt after the date's answer, or the category prompt after the amount's answer, finds no acceptable line before the input ends |
| Tracker.AddEntry | tracker/ExpenseTracker.java:53-69 | adding goes ahead exactly when all three prompts are answered, and then the ledger becomes the old ledger plus that one entry, the matching "added" message is shown and the input resumes after the category line; the files never change; running out of input changes nothing |
| Tracker.PathLine | tracker/ExpenseTracker.java:200-207 | the path prompt takes the first line that is not blank after trimming, every earlier line being refused; it runs off the end exactly when no such line exists |
| Tracker.LoadFlow | tracker/ExpenseTracker.java:90-119 | load stops for lack of input exactly when no path line exists; otherwise it runs the file load on the trimmed path line and the file found there, with the `dd-MM-yyyy` date reader and the amount reader: an invalid file changes nothing, a completed load sets the ledger to the loaded one and reports its count, a failed load keeps what was appended; files never change and the input resumes after the path line |
| Tracker.Write | tracker/ExpenseTracker.java:138-146 | writing replaces the file at the path with one line per ledger entry and reports the path it saved to; writing onto a directory fails and changes nothing |
| Tracker.SaveTo | tracker/ExpenseTracker.java:124-146 | a path without the `.csv` suffix changes nothing; a new `.csv` path is written at once; an existing one is written exactly when the next line confirms "yes" and is otherwise cancelled; the run stops only when that confirmation line is missing; the ledger never changes and only the named path can change |
| Tracker.SaveFlow | tracker/ExpenseTracker.java:121-147 | save stops for lack of input exactly when no path line exists; otherwise it saves to the trimmed path line with the lines after it, changing at most that path and never the ledger |
| Tracker.SavedFileLoadsBack | tracker/ExpenseTracker.java:99-142 | the partner of save: loading a path that save has just written, with readers for the format save writes, appends exactly the saved ledger in order and counts every entry (the program's own `dd-MM-yyyy` reader is not such a reader; see "## Findings") |
| Tracker.SaveWroteLedger | tracker/ExpenseTracker.java:124-143 | a save that reports writing a path passed the `.csv` test and left exactly the ledger's lines in the file at that path |
| Tracker.Step | tracker/ExpenseTracker.java:18-31 | one menu round reads the choice line and runs 1 and 2 as adding an income or an expense, 3 as the summary, 4 as load, 5 as save, 6 as stopping with `Exited`, and any other choice as the invalid-choice message; the ledger only grows, only save touches files, and an empty input stops the program |
| Tracker.RunProgram | tracker/ExpenseTracker.java:18-31 | over a whole run the earlier ledger is a prefix of the final one, at most one message is shown per input line, and the run ends with the farewell message exactly when it ends by the exit choice |
| Tracker.ExitEndsRun | tracker/ExpenseTracker.java:28 | choosing 6 shows the farewell message and ends the run at once, with the world unchanged |
| Tracker.StepKeepsAdmissible | tracker/ExpenseTracker.java:53-69 | every menu round other than load keeps every entry positive and in its kind's category list |
| Tracker.KindCategories | tracker/ExpenseTracker.java:57-66 | an income takes its category from the income list and an expense from the expense list (`Tracker.AddEntry`) |
| Tracker.AddKeepsCommaFree | tracker/ExpenseTracker.java:53-69 | adding an income or an expense keeps every category comma-free, since the added category comes from one of the two lists |
| Tracker.LoadFlowKeepsCommaFree | tracker/ExpenseTracker.java:90-119 | loading keeps every category comma-free, since a loaded category is a field of `split(",")` |
| Tracker.StepKeepsCommaFree | tracker/ExpenseTracker.java:18-31 | every menu round keeps every category free of commas |
| Tracker.RunKeepsCommaFree | tracker/ExpenseTracker.java:18-31 | over a whole run every category stays comma-free, so every ledger the program reaches from an empty one can be saved and loaded back field for field |
| Input.MenuChoice | tracker/ExpenseTracker.java:45-51 | the menu choice is the parsed trimmed line, or -1 when it does not parse |
| Input.DateEntry | tracker/ExpenseTracker.java:158 | one attempt of the date prompt: the trimmed line under the `yyyy-MM-dd` reader (padding: `Input.EntriesIgnorePadding`) |
| Input.AmountEntry | tracker/ExpenseTracker.java:165-176 | an amount line is accepted exactly when its trimmed text parses to a value above zero |
| Input.CategoryEntry | tracker/ExpenseTracker.java:178-198 | a category line is accepted exactly when some listed category equals its trimmed text ignoring case, and the result is that category's canonical spelling |
| Input.NonEmptyEntry | tracker/ExpenseTracker.java:200-207 | a path line is accepted exactly when its trimmed text is not blank, and the result is the trimmed text |
| Input.NonEmptyEntryIsTrimmed | tracker/ExpenseTracker.java:200-207 | an accepted path is not empty and is already trimmed: trimming it again changes nothing, and it neither starts nor ends with a trimmable char (that it is not blank is `Input.NonEmptyEntry`'s contract) |
| Input.EntriesIgnorePadding | tracker/ExpenseTracker.java:47 | the menu reader and the date, amount, category and path validators (lines 158, 169, 181, 192, 203) all give the same answer for a line and for its trimmed text |
| Input.FirstAccepted | tracker/ExpenseTracker.java:154-163 | the retry loop stops at the first acceptable line; every earlier line was refused |
| Input.FirstAcceptedFrom | tracker/ExpenseTracker.java:154-163 | counted from a given line, the retry loop either stops at a line that is accepted with every line before it refused, or runs off the end exactly when no remaining line is accepted |
| Input.AnswerIsUnique | tracker/ExpenseTracker.java:154-163 | a retrying prompt has at most one answering line: the first accepted one |
| Input.ReadField | tracker/ExpenseTracker.java:154-163 | one prompt with its retries yields nothing exactly when no remaining line is accepted; otherwise it consumes lines up to and including the answering line and yields that line's value |
| Input.ReadFieldIsFirstAccepted | tracker/ExpenseTracker.java:154-163 | reading a field stops one line after the first accepted line, and fails exactly when the first-accepted search runs off the end |
| Input.ReadFieldOfAnswer | tracker/ExpenseTracker.java:154-163 | when a line answers the prompt, reading the field yields that line's value and resumes right after it |
| Categories.Lookup | tracker/ExpenseTracker.java:182-184 | the lookup returns the first member of the list that equals the input ignoring case, and fails exactly when no member does |
| Categories.LookupIsUnique | tracker/ExpenseTracker.java:182-184 | in a list without case-insensitive duplicates, the member the lookup returns is the only one that matches |
| Categories.CategoriesDistinct | expense/tracker/Constants.java:7-8 | neither category list has two members that differ only in case |
| Categories.KindsDisjoint | expense/tracker/Constants.java:7-8 | no income category equals an expense category, even ignoring case |
| Categories.ListsCommaFree | expense/tracker/Constants.java:7-8 | no listed category holds a comma |
| Categories.CategoryDeterminesKind | tracker/ExpenseTracker.java:178-198 | no typed category is accepted by both the income and the expense prompt |
| Transactions.ConstructionIsPlainStorage | tracker/Transaction.java:11-21 | the constructor stores its four arguments unchanged, and the getters return them |
| Transactions.ConstructionDoesNotValidate | tracker/Transaction.java:11-16 | the constructor accepts a zero amount and an unknown category |
| Summary.Summarize | tracker/ExpenseTracker.java:71-88 | the summary shows the notice exactly when the ledger is empty; otherwise one group per month that occurs, with the month's income sum, expense sum, and income minus expenses |
| Summary.Group | tracker/ExpenseTracker.java:73-74 | `groupingBy` month: each entry appended to its month's list (`Summary.GroupIsPartition`) |
| Summary.KeyOf | tracker/ExpenseTracker.java:74 | the grouping key of an entry: its month and its year (`Summary.GroupIsPartition`) |
| Summary.IncomeOf | tracker/ExpenseTracker.java:82 | the sum of the amounts of the income entries of a list (`Summary.Summarize`) |
| Summary.ExpensesOf | tracker/ExpenseTracker.java:83 | the sum of the amounts of the expense entries of a list (`Summary.Summarize`) |
| Summary.TotalsOf | tracker/ExpenseTracker.java:82-84 | a group's income sum, expense sum and their difference (`Summary.Summarize`) |
| Summary.GroupIsPartition | tracker/ExpenseTracker.java:73-74 | grouping by month gives one list per occurring month, holding that month's entries in ledger order |
| Summary.InMonthCount | tracker/ExpenseTracker.java:73-74 | a month's group holds each entry of that month exactly as often as the ledger does, and no entry of another month |
| Summary.InMonthMembership | tracker/ExpenseTracker.java:73-74 | an entry is in a month's group exactly when it is in the ledger and dated in that month |
| Summary.OneMonthSummary | tracker/ExpenseTracker.java:73-86 | a ledger whose entries all fall in one month is shown as that single month, with the totals of the whole ledger |
| Summary.SameMonthExample | tracker/ExpenseTracker.java:81-86 | an income of 100.00 and an expense of 40.00 in one month give that month a balance of 60.00 |
| Csv.IsCsvPathIgnoresCase | tracker/ExpenseTracker.java:94 | the `.csv` test compares the path's last four chars with ".csv" ignoring case |
| Csv.IsCsvPath | tracker/ExpenseTracker.java:94 | the lowered path ends with ".csv", the test load and save (line 124) both apply (`Csv.IsCsvPathIgnoresCase`) |
| Csv.ConfirmsOverwrite | tracker/ExpenseTracker.java:132 | the trimmed answer equals "yes" ignoring case (`Text.EqualsIgnoreCaseIsLoweredEquality`, `Tracker.SaveTo`) |
| Csv.Classify | tracker/ExpenseTracker.java:103-110 | a line is skipped exactly when it does not split into four fields, is unparsable exactly when it has four fields and its date or amount does not parse, and otherwise gives the entry of the parsed date and amount, the verbatim category and the parsed flag |
| Csv.LoadStep | tracker/ExpenseTracker.java:102-114 | one pass of the load loop aborts exactly on an unparsable line, keeping the ledger; otherwise it appends at most one entry and counts what it appended |
| Csv.LoadLines | tracker/ExpenseTracker.java:102-114 | the load loop only appends, at most one entry per line; once aborted it stays aborted; when it finishes, its count rose by the number of entries it appended |
| Csv.LoadLinesKeepsCommaFree | tracker/ExpenseTracker.java:102-114 | the load loop appends only entries whose category holds no comma |
| Csv.LoadKeepsCommaFree | tracker/ExpenseTracker.java:90-119 | a load onto a ledger with comma-free categories leaves them comma-free |
| Csv.ClassifiedCategoryCommaFree | tracker/ExpenseTracker.java:103-108 | the category of a parsed line is a field of `split(",")` and holds no comma |
| Csv.SaveLines | tracker/ExpenseTracker.java:139-142 | save writes one line per entry, in ledger order |
| Csv.RecordFields | tracker/ExpenseTracker.java:140-141 | the four fields of a saved line: ISO date, two-decimal amount, category, flag (`Csv.RecordLineFields`) |
| Csv.RecordLine | tracker/ExpenseTracker.java:140-141 | the four fields joined by commas (`Csv.RecordLineFields`, `Csv.ClassifyRecordLine`) |
| Csv.ParseRecord | tracker/ExpenseTracker.java:105-110 | a four-field line gives an entry exactly when its date and amount parse; the category is kept verbatim; the flag is true exactly for "true" ignoring case |
| Csv.ConfirmsOverwriteExamples | tracker/ExpenseTracker.java:132 | "yes" is taken in any case and with padding ("yes", " YES ", "Yes" and a tab); "no", "y" and the empty answer are not |
| Csv.BoolText | tracker/ExpenseTracker.java:140-141 | `%b` of the income flag: "true" or "false" in lower case (`Csv.BoolTextReadsBack`) |
| Csv.BoolTextReadsBack | tracker/ExpenseTracker.java:109 | the flag is written in lower case, and `Boolean.parseBoolean` of the written flag gives the flag back |
| Csv.ParseBool | tracker/ExpenseTracker.java:109 | `Boolean.parseBoolean`: true exactly for "true" ignoring case, with no trimming (`Csv.ParseRecord`) |
| Csv.FirstUnparsable | tracker/ExpenseTracker.java:105-110 | finds the first four-field line that fails to parse |
| Csv.LoadLinesMeaning | tracker/ExpenseTracker.java:99-118 | the load loop skips lines that do not have four fields and appends the parsed entries in file order; the first unparsable line stops it, keeping the entries before it |
| Csv.AdvanceAllMeaning | tracker/ExpenseTracker.java:102-114 | the same, over the kinds of the lines |
| Csv.LoadLinesByKinds | tracker/ExpenseTracker.java:102-114 | the loop over lines equals the loop over their kinds |
| Csv.Load | tracker/ExpenseTracker.java:90-119 | the file is refused exactly when it is missing, is a directory or lacks the `.csv` suffix; a completed load appends the parsed entries and reports their number; a failed load keeps the entries appended before the error |
| Csv.ClassifyOtherWidth | tracker/ExpenseTracker.java:103-104 | a line that does not split into exactly four fields is skipped |
| Csv.GoodLineThenShortLine | tracker/ExpenseTracker.java:103-115 | a `.csv` file holding a well-formed line and then a line of another width loads one entry and reports a count of one |
| Csv.GoodLineThenUnparsableLine | tracker/ExpenseTracker.java:105-118 | a `.csv` file holding a well-formed line and then an unparsable one keeps the first entry and reports a failure with no count |
| Csv.RecordLineFields | tracker/ExpenseTracker.java:140-141 | a saved line splits back into the four fields written, when the category has no comma |
| Csv.SavedLineUnparsable | tracker/ExpenseTracker.java:106 | a line save writes is refused by the `dd-MM-yyyy` reader |
| Csv.SaveThenLoadAborts | tracker/ExpenseTracker.java:106 | loading a saved non-empty ledger with the `dd-MM-yyyy` reader stops at the first line and appends nothing |
| Csv.ClassifyRecordLine | tracker/ExpenseTracker.java:103-110 | with readers that invert the save format, a saved line parses back into its entry |
| Csv.SaveThenLoadRoundTrip | tracker/ExpenseTracker.java:99-142 | with readers matching the save format, loading a saved ledger appends exactly that ledger in order and counts every entry |
| Csv.LoadSavedFile | tracker/ExpenseTracker.java:90-142 | a `.csv` file holding a saved ledger, loaded with readers for the save format, gives that ledger appended in order with every entry counted |
| Csv.LoadOfRegularFile | tracker/ExpenseTracker.java:94-115 | a `.csv` regular file whose loop reads every line is loaded with the loop's entries and count |
| Csv.CentsReaderSuitsRoundTrip | tracker/ExpenseTracker.java:140 | the two-decimal amount text is read back exactly |
| Csv.IsoReaderSuitsRoundTrip | tracker/ExpenseTracker.java:140 | the ISO reader reads every saved date text back as its date, so the date requirement of the round trip can be met |
| Csv.CorrectedLoadRoundTrip | tracker/ExpenseTracker.java:99-142 | with the ISO date reader and the two-decimal amount reader, loading a saved ledger with comma-free categories appends exactly that ledger in order and counts every entry |
| Money.CentsText | tracker/ExpenseTracker.java:140 | `%.2f` of an amount ends in a point and two digits holding the amount's cents, and starts with a minus sign exactly for a negative amount |
| Money.ReadCentsInvertsCentsText | tracker/ExpenseTracker.java:140 | every amount written with two decimals reads back as the same amount |
| Money.CentsTextUnits | tracker/ExpenseTracker.java:140-141 | in `%.2f`, the digits between the optional minus sign and the point are the amount's whole units |
| Money.CentsTextCommaFree | tracker/ExpenseTracker.java:140 | an amount text has no comma, so it stays a single field |
| Dates.YearText | tracker/ExpenseTracker.java:140-141 | `LocalDate.toString`'s year: at least four digits, zero-padded; a minus sign before a negative year and a plus sign before one above 9999 (`Dates.ReadYearOfYearText`) |
| Dates.IsoText | tracker/ExpenseTracker.java:140 | the saved date ends in `-MM-dd`: a hyphen, two digits holding the month, a hyphen and two digits holding the day, after a year of at least four chars |
| Dates.ReadIsoInvertsIsoText | tracker/ExpenseTracker.java:140 | reading a date back from the ISO text save writes gives the same date, for every year, month and day |
| Dates.ReadYearOfYearText | tracker/ExpenseTracker.java:140 | every year text, whether padded, signed or wider than four digits, reads back as its year |
| Dates.IsoTextInjective | tracker/ExpenseTracker.java:140 | distinct dates are saved as distinct texts |
| Dates.IsoTextNotDayFirst | tracker/ExpenseTracker.java:106 | no ISO date text starts with a two-digit day and a hyphen, so the `dd-MM-yyyy` reader refuses it |
| Dates.IsoTextCommaFree | tracker/ExpenseTracker.java:140-141 | a saved date has no comma |
| Text.Trim | tracker/ExpenseTracker.java:47 | the trimmed text is no longer than the input and neither starts nor ends with a char at or below U+0020 |
| Text.TrimIsTrimmedAt | tracker/ExpenseTracker.java:47 | `trim` removes trimmable chars at the two ends and nothing else: the result is a slice of the input with only trimmable chars around it |
| Text.TrimIdempotent | tracker/ExpenseTracker.java:203 | trimming twice is trimming once |
| Text.Split | tracker/ExpenseTracker.java:103 | `split(",")`: a comma-free text whole, otherwise the pieces without trailing empty ones (`Text.SplitJoin`, `Text.SplitIgnoresTrailingComma`) |
| Text.IsBlank | tracker/ExpenseTracker.java:204 | `isBlank`: every char is Java whitespace (`Input.NonEmptyEntry`) |
| Text.SplitJoin | tracker/ExpenseTracker.java:103 | `split(",")` undoes joining at least two comma-free fields when the last is not empty |
| Text.SplitIgnoresTrailingComma | tracker/ExpenseTracker.java:103 | a trailing comma adds no field |
| Text.JoinOfPieces | tracker/ExpenseTracker.java:103 | joining the comma-separated pieces of a text gives the text back |
| Text.SplitCommaFree | tracker/ExpenseTracker.java:103 | no field of `split(",")` holds a comma |
| Text.EqualsIgnoreCase | tracker/ExpenseTracker.java:183 | `String.equalsIgnoreCase`: same length and the same chars once lowered (`Text.EqualsIgnoreCaseIsLoweredEquality`) |
| Text.ToLower | tracker/ExpenseTracker.java:94 | `String.toLowerCase` keeps the length and lowers each char in place |
| Text.EndsWith | tracker/ExpenseTracker.java:124 | `String.endsWith`: the suffix is the last chars of the text (`Csv.IsCsvPathIgnoresCase`) |
| Text.EqualsIgnoreCaseIsLoweredEquality | tracker/ExpenseTracker.java:132 | comparing ignoring case is comparing the lowered texts |
| Numerals.DigitsValueOfNatText | tracker/ExpenseTracker.java:140 | the decimal text of a number reads back as that number |
| Numerals.ZeroPadValue | tracker/ExpenseTracker.java:140 | zero-padding a run of digits, as a year below 1000 is written, keeps its value |


## Left out

- Menu text, prompts, the per-attempt error messages and the `%.2f` formatting of the summary lines are not modelled. The outcome line of each operation, and the farewell line of exit, is kept as a `Message`.
- `System.exit(0)` is modelled as the run stopping with `Exited`, after the `Farewell` message.
- Amounts are exact whole cents instead of `double`. NaN, infinities, sums that round, and amounts with more than two decimals are out of scope.
- `%.2f` is locale-dependent. The model assumes a '.' decimal separator.
- `Integer.parseInt`, `Double.parseDouble` and both `LocalDate.parse` patterns are abstract parameters. Their internals are library code.
- `ReadsDayFirst` is the only fact assumed about the `dd-MM-yyyy` reader: it accepts only texts that start with two digits and a hyphen.
- Day-of-month validity per month (for example February 30) is not modelled. It belongs to the date parsers.
- `toLowerCase` and `equalsIgnoreCase` are modelled for ASCII letters only.
- Files are modelled as sequences of lines, and save writes each entry as one line. A category holding a line break would span two lines in the real file. No category the program holds has one: typed categories come from the two lists, and a loaded one comes from within a single line. The model does not prove this.
- A category holding a comma is saved as the program saves it: a line with more than four fields, which load skips. The round-trip lemmas require comma-free categories. `Tracker.RunKeepsCommaFree` proves that every ledger the program reaches from an empty one meets that requirement.
- Paths are compared as text, with no normalisation and no aliasing. `./data.csv` and `data.csv`, or two spellings that differ only in case on a case-insensitive file system, are two unrelated entries in the model but one file for `File.exists` (lines 94 and 130). So when `data.csv` exists and the user saves to `./data.csv`, the program asks before overwriting, while `Tracker.SaveTo` writes at once and leaves the next line for the menu.
- Of the I/O failures, only writing onto a directory is modelled. Other `IOException`s, such as a missing parent directory or a read error during load, are not.
- The order in which the summary prints its groups comes from a `HashMap`. It is not modelled; the summary is a `map`.
- `Summary.Summarize`: month names are not spelled out. The key is the (month, year) pair, which is one-to-one with the printed "MARCH 2024" text.
- The unused constants `INCOME`, `EXPENSE`, `INVALID_DATE_MSG` and `INVALID_AMOUNT_MSG` are not modelled. Neither is `DATE_FORMAT_HINT`, which is prompt text.
- `Tracker.RunProgram` states that the ledger grows, that there is at most one message per input line, and that the last message is the farewell exactly for a run ended by exit. The other messages of a run are not specified beyond each round's `Step` contract.
- `Tracker.ReadEntry`: its own contract gives the order of the three answering lines and the admissibility of the entry. That the values come from the first accepted lines, and that it fails exactly when a prompt runs out of input, is stated by `Tracker.ReadEntryAnswers`, `Tracker.ReadEntryOfAnswers` and `Tracker.ReadEntryRunsOut`, to keep each proof small.

## Findings

| source | as written | input that shows it | evidently intended | confidence | as-written member | corrected member |
|---|---|---|---|---|---|---|
| tracker/ExpenseTracker.java:106 | load reads dates with the `dd-MM-yyyy` pattern, while save writes them in ISO `yyyy-MM-dd` form (line 140) | save a ledger holding one expense dated 2024-03-15, then load that file: its first line `2024-03-15,...` does not parse, so the load stops and appends nothing | load reads the date format that save writes, so that saving and then loading gives the ledger back | high; not executed | Csv.SaveThenLoadAborts | Csv.CorrectedLoadRoundTrip |

=== FILE: categories.dfy ===
/** The two fixed category lists and the case-insensitive lookup that interactive entry
    uses to turn typed text into a canonical category. */
module Categories {
  import opened Wrappers
  import opened Text

  /** Income categories, in their declared order. */
  const Income: seq<string> := ["Salary", "Business"]

  /** Expense categories, in their declared order. */
  const Expense: seq<string> := ["Food", "Rent", "Travel"]

  /** No two members of `cats` are equal ignoring case. */
  predicate DistinctIgnoringCase(cats: seq<string>) {
    forall i, j | 0 <= i < j < |cats| :: !EqualsIgnoreCase(cats[i], cats[j])
  }

  /** The first member of `cats` equal to `input` ignoring case, in its canonical
      spelling; `None` when no member matches. */
  function Lookup(input: string, cats: seq<string>): (r: Option<string>)
    ensures r.Some? ==> r.value in cats && EqualsIgnoreCase(r.value, input)
    ensures r.None? <==> forall c | c in cats :: !EqualsIgnoreCase(c, input)
    ensures r.Some? ==> exists i | 0 <= i < |cats| :: && cats[i] == r.value
                                                     && forall j | 0 <= j < i :: !EqualsIgnoreCase(cats[j], input)
    decreases |cats|
  {
    if |cats| == 0 then None
    else if EqualsIgnoreCase(cats[0], input) then Some(cats[0])
    else Lookup(input, cats[1..])
  }

  lemma EqualsIgnoreCaseEquivalence(a: string, b: string, c: string)
    requires EqualsIgnoreCase(a, c) && EqualsIgnoreCase(b, c)
    ensures EqualsIgnoreCase(a, b)
  {
  }

  /** In a list without case-insensitive duplicates, the canonical spelling found by
      `Lookup` is the only member that matches. */
  lemma LookupIsUnique(input: string, cats: seq<string>)
    requires DistinctIgnoringCase(cats)
    ensures Lookup(input, cats).Some? ==>
              forall c | c in cats && EqualsIgnoreCase(c, input) :: c == Lookup(input, cats).value
  {
    var r := Lookup(input, cats);
    if r.Some? {
      forall c | c in cats && EqualsIgnoreCase(c, input)
        ensures c == r.value
      {
        var i :| 0 <= i < |cats| && cats[i] == c;
        var j :| 0 <= j < |cats| && cats[j] == r.value;
        EqualsIgnoreCaseEquivalence(c, r.value, input);
      }
    }
  }

  /** Neither list holds two members that differ only in case. */
  lemma CategoriesDistinct()
    ensures DistinctIgnoringCase(Income) && DistinctIgnoringCase(Expense)
  {
    assert Lower(Expense[0][0]) == 'f' && Lower(Expense[1][0]) == 'r';
  }

  /** No listed category holds a comma. */
  lemma ListsCommaFree()
    ensures forall c | c in Income :: CommaFree(c)
    ensures forall c | c in Expense :: CommaFree(c)
  {
  }

  /** No income category equals an expense category, even ignoring case. */
  lemma KindsDisjoint()
    ensures forall a, b | a in Income && b in Expense :: !EqualsIgnoreCase(a, b)
  {
    assert Lower(Income[0][0]) == 's' && Lower(Expense[2][0]) == 't';
  }

  /** A typed category matches at most one of the two lists, so it determines whether the
      entry is income or expense. */
  lemma CategoryDeterminesKind(input: string)
    ensures !(Lookup(input, Income).Some? && Lookup(input, Expense).Some?)
  {
    var a := Lookup(input, Income);
    var b := Lookup(input, Expense);
    if a.Some? && b.Some? {
      KindsDisjoint();
      EqualsIgnoreCaseEquivalence(a.value, b.value, input);
      assert false;
    }
  }
}

=== FILE: csv.dfy ===
/** The CSV file format: how `saveTransactions` writes the ledger and how
    `loadTransactions` reads a file back, line by line. Files are sequences of lines;
    the date and amount parsers are library code and are passed in as `Readers`. */
module Csv {
  import opened Wrappers
  import opened Text
  import opened Dates
  import opened Money
  import opened Transactions

  /** What a path names in the file system: a regular file with its lines, or a directory. */
  datatype Entry = RegularFile(lines: seq<string>) | Directory

  /** The two library parsers load uses: `LocalDate.parse` with the load pattern, and
      `Double.parseDouble` (amounts in cents). */
  datatype Readers = Readers(date: string -> Option<Date>, amount: string -> Option<int>)

  /** The case-insensitive `.csv` suffix test both load and save apply to the path. */
  predicate IsCsvPath(path: string) {
    EndsWith(ToLower(path), ".csv")
  }

  /** The suffix test is the last four chars compared with ".csv" ignoring case. */
  lemma IsCsvPathIgnoresCase(path: string)
    ensures IsCsvPath(path) <==> |path| >= 4 && EqualsIgnoreCase(path[|path| - 4..], ".csv")
  {
    var low := ToLower(path);
    if |path| >= 4 {
      var tail := path[|path| - 4..];
      assert low[|low| - 4..] == ToLower(tail);
      EqualsIgnoreCaseIsLoweredEquality(tail, ".csv");
      assert ToLower(".csv") == ".csv";
    }
  }

  /** The overwrite prompt is answered with "yes": trimmed, ignoring case. */
  predicate ConfirmsOverwrite(answer: string) {
    EqualsIgnoreCase(Trim(answer), "yes")
  }

  /** `%b` of a boolean. */
  function BoolText(b: bool): string {
    if b then "true" else "false"
  }

  /** `Boolean.parseBoolean`: true exactly for "true" ignoring case, false for anything else
      (no trimming, never an error). */
  predicate ParseBool(s: string) {
    EqualsIgnoreCase(s, "true")
  }

  /** The overwrite question takes "yes" in any case and with any padding, and nothing else. */
  lemma ConfirmsOverwriteExamples()
    ensures ConfirmsOverwrite("yes") && ConfirmsOverwrite(" YES ") && ConfirmsOverwrite("Yes\t")
    ensures !ConfirmsOverwrite("no") && !ConfirmsOverwrite("y") && !ConfirmsOverwrite("")
  {
    assert Trim(" YES ") == "YES";
    assert Trim("Yes\t") == "Yes";
  }

  /** The flag is written in lower case, and reads back as itself. */
  lemma BoolTextReadsBack(b: bool)
    ensures BoolText(true) == "true" && BoolText(false) == "false"
    ensures ParseBool(BoolText(b)) == b
  {
  }

  /** The fields save writes for one entry: ISO date, amount with two decimals, category
      verbatim, and the flag. */
  function RecordFields(t: Transaction): seq<string> {
    [IsoText(t.date), CentsText(t.amount), t.category, BoolText(t.isIncome)]
  }

  /** The line save writes for one entry (the line terminator is the file's line split). */
  function RecordLine(t: Transaction): string {
    Join(RecordFields(t))
  }

  /** The lines of a saved file: one per entry, in ledger order. */
  function SaveLines(ledger: seq<Transaction>): (lines: seq<string>)
    ensures |lines| == |ledger|
    ensures forall i | 0 <= i < |ledger| :: lines[i] == RecordLine(ledger[i])
    decreases |ledger|
  {
    if |ledger| == 0 then [] else [RecordLine(ledger[0])] + SaveLines(ledger[1..])
  }

  /** The entry a four-field line denotes, or `None` when the date or the amount does not
      parse (the date is parsed first). The category is taken verbatim. */
  function ParseRecord(fields: seq<string>, rd: Readers): (r: Option<Transaction>)
    requires |fields| == 4
    ensures r.Some? <==> rd.date(fields[0]).Some? && rd.amount(fields[1]).Some?
    ensures r.Some? ==> && r.value.date == rd.date(fields[0]).value
                        && r.value.amount == rd.amount(fields[1]).value
                        && r.value.category == fields[2]
                        && (r.value.isIncome <==> EqualsIgnoreCase(fields[3], "true"))
  {
    match rd.date(fields[0])
    case None => None
    case Some(d) =>
      match rd.amount(fields[1])
      case None => None
      case Some(a) => Some(Transaction(d, a, fields[2], ParseBool(fields[3])))
  }

  /** The state of the load loop: still reading (with the entries appended so far and their
      count), or stopped by a parse error. */
  datatype LoadState = Reading(ledger: seq<Transaction>, count: nat) | Aborted(ledger: seq<Transaction>)

  /** How load treats one line: a split into other than four fields is skipped; a
      four-field line either parses into an entry or stops the load. */
  datatype LineKind = Skipped | Parsed(t: Transaction) | Unparsable

  /** A line that does not split into exactly four fields is skipped; a four-field line
      whose date or amount field does not parse stops the load; any other line denotes
      the entry made of its date, its amount, its category field verbatim and its flag. */
  function Classify(line: string, rd: Readers): (k: LineKind)
    ensures k.Skipped? <==> |Split(line)| != 4
    ensures k.Unparsable? <==>
              |Split(line)| == 4 && (rd.date(Split(line)[0]).None? || rd.amount(Split(line)[1]).None?)
    ensures k.Parsed? ==> var f := Split(line);
              k.t == Transaction(rd.date(f[0]).value, rd.amount(f[1]).value, f[2], ParseBool(f[3]))
  {
    var fields := Split(line);
    if |fields| != 4 then Skipped
    else
      match ParseRecord(fields, rd)
      case None => Unparsable
      case Some(t) => Parsed(t)
  }

  /** One iteration of the load loop: it stops exactly at an unparsable line, and
      otherwise appends at most one entry and counts what it appends. */
  function LoadStep(st: LoadState, line: string, rd: Readers): (r: LoadState)
    requires st.Reading?
    ensures r.Aborted? <==> Classify(line, rd).Unparsable?
    ensures r.Aborted? ==> r.ledger == st.ledger
    ensures r.Reading? ==> && st.ledger <= r.ledger && |r.ledger| <= |st.ledger| + 1
                           && r.count == st.count + |r.ledger| - |st.ledger|
  {
    Advance(st, Classify(line, rd))
  }

  /** The effect of a line of the given kind on a load still reading. */
  function Advance(st: LoadState, kind: LineKind): LoadState
    requires st.Reading?
  {
    match kind
    case Skipped => st
    case Unparsable => Aborted(st.ledger)
    case Parsed(t) => Reading(st.ledger + [t], st.count + 1)
  }

  /** No category of the ledger holds a comma. */
  predicate CategoriesCommaFree(ledger: seq<Transaction>) {
    forall i | 0 <= i < |ledger| :: CommaFree(ledger[i].category)
  }

  lemma AppendKeepsCommaFree(ledger: seq<Transaction>, t: Transaction)
    requires CategoriesCommaFree(ledger) && CommaFree(t.category)
    ensures CategoriesCommaFree(ledger + [t])
  {
    forall i | 0 <= i < |ledger| + 1
      ensures CommaFree((ledger + [t])[i].category)
    {
      if i < |ledger| { assert (ledger + [t])[i] == ledger[i]; }
    }
  }

  /** A loaded category is a field of `split(",")`, so it holds no comma. */
  lemma ClassifiedCategoryCommaFree(line: string, rd: Readers)
    ensures Classify(line, rd).Parsed? ==> CommaFree(Classify(line, rd).t.category)
  {
    SplitCommaFree(line);
  }

  /** Loading keeps every category comma-free. */
  lemma {:induction false} LoadLinesKeepsCommaFree(st: LoadState, lines: seq<string>, rd: Readers)
    requires CategoriesCommaFree(st.ledger)
    ensures CategoriesCommaFree(LoadLines(st, lines, rd).ledger)
    decreases |lines|
  {
    if st.Reading? && |lines| > 0 {
      var next := LoadStep(st, lines[0], rd);
      ClassifiedCategoryCommaFree(lines[0], rd);
      assert CategoriesCommaFree(next.ledger);
      LoadLinesKeepsCommaFree(next, lines[1..], rd);
    }
  }

  /** The load loop over the lines of the file, in file order. It only appends, at most
      one entry per line; a stopped load stays stopped; and a load that is still reading
      has counted exactly the entries it appended. */
  function LoadLines(st: LoadState, lines: seq<string>, rd: Readers): (r: LoadState)
    ensures st.ledger <= r.ledger && |r.ledger| <= |st.ledger| + |lines|
    ensures st.Aborted? ==> r == st
    ensures r.Reading? ==> st.Reading? && r.count == st.count + |r.ledger| - |st.ledger|
    decreases |lines|
  {
    if st.Aborted? || |lines| == 0 then st else LoadLines(LoadStep(st, lines[0], rd), lines[1..], rd)
  }

  /** The kind of every line, in file order. */
  function Kinds(lines: seq<string>, rd: Readers): (ks: seq<LineKind>)
    ensures |ks| == |lines|
    ensures forall i | 0 <= i < |lines| :: ks[i] == Classify(lines[i], rd)
  {
    seq(|lines|, i requires 0 <= i < |lines| => Classify(lines[i], rd))
  }

  /** The entries the parsed lines denote, in file order. */
  function Appended(ks: seq<LineKind>): seq<Transaction>
    decreases |ks|
  {
    if |ks| == 0 then []
    else Added(ks[0]) + Appended(ks[1..])
  }

  /** The index of the first line with four fields that does not parse, or the number of
      lines when there is none. */
  function FirstUnparsable(ks: seq<LineKind>): (k: nat)
    ensures k <= |ks|
    ensures forall i | 0 <= i < k :: !ks[i].Unparsable?
    ensures k < |ks| ==> ks[k].Unparsable?
    decreases |ks|
  {
    if |ks| == 0 || ks[0].Unparsable? then 0 else 1 + FirstUnparsable(ks[1..])
  }

  /** The load loop run over the kinds of the lines instead of the lines. */
  function AdvanceAll(st: LoadState, ks: seq<LineKind>): LoadState
    decreases |ks|
  {
    if st.Aborted? || |ks| == 0 then st else AdvanceAll(Advance(st, ks[0]), ks[1..])
  }

  lemma {:induction false} LoadLinesByKinds(st: LoadState, lines: seq<string>, rd: Readers)
    ensures LoadLines(st, lines, rd) == AdvanceAll(st, Kinds(lines, rd))
    decreases |lines|
  {
    if st.Reading? && |lines| > 0 {
      var ks := Kinds(lines, rd);
      assert ks[0] == Classify(lines[0], rd) && ks[1..] == Kinds(lines[1..], rd);
      LoadLinesByKinds(LoadStep(st, lines[0], rd), lines[1..], rd);
    }
  }

  /** The entry a line of this kind contributes. */
  function Added(kind: LineKind): seq<Transaction> {
    if kind.Parsed? then [kind.t] else []
  }

  lemma ConcatAssoc(a: seq<Transaction>, b: seq<Transaction>, c: seq<Transaction>)
    ensures a + b + c == a + (b + c)
  {
  }

  lemma AppendedOfPrefix(ks: seq<LineKind>, k: nat)
    requires 0 < k <= |ks|
    ensures Appended(ks[..k]) == Added(ks[0]) + Appended(ks[1..][..k - 1])
  {
    var pre := ks[..k];
    assert pre[0] == ks[0] && pre[1..] == ks[1..][..k - 1];
  }

  lemma {:induction false} AdvanceAllMeaning(ledger: seq<Transaction>, count: nat, ks: seq<LineKind>)
    ensures var k := FirstUnparsable(ks);
            AdvanceAll(Reading(ledger, count), ks) ==
              if k == |ks| then Reading(ledger + Appended(ks), count + |Appended(ks)|)
              else Aborted(ledger + Appended(ks[..k]))
    decreases |ks|
  {
    if |ks| == 0 {
      assert ledger + [] == ledger;
    } else if ks[0].Unparsable? {
      assert ks[..0] == [];
      assert ledger + [] == ledger;
    } else {
      var rest := ks[1..];
      var k := FirstUnparsable(ks);
      var added := Added(ks[0]);
      assert Advance(Reading(ledger, count), ks[0]) == Reading(ledger + added, count + |added|);
      AdvanceAllMeaning(ledger + added, count + |added|, rest);
      if k < |ks| {
        AppendedOfPrefix(ks, k);
        ConcatAssoc(ledger, added, Appended(rest[..k - 1]));
      } else {
        ConcatAssoc(ledger, added, Appended(rest));
      }
    }
  }

  /** The load loop, in terms of the lines taken one by one: without an unparsable line it
      appends every parsed line's entry in file order and counts exactly those; otherwise
      it stops at the first unparsable line, keeping the entries of the lines before it. */
  lemma LoadLinesMeaning(ledger: seq<Transaction>, count: nat, lines: seq<string>, rd: Readers)
    ensures var ks := Kinds(lines, rd);
            var k := FirstUnparsable(ks);
            LoadLines(Reading(ledger, count), lines, rd) ==
              if k == |ks| then Reading(ledger + Appended(ks), count + |Appended(ks)|)
              else Aborted(ledger + Appended(ks[..k]))
  {
    LoadLinesByKinds(Reading(ledger, count), lines, rd);
    AdvanceAllMeaning(ledger, count, Kinds(lines, rd));
  }

  /** What a load reports. */
  datatype LoadOutcome =
    | InvalidFile
    | Loaded(ledger: seq<Transaction>, count: nat)
    | Failed(ledger: seq<Transaction>)

  /** `loadTransactions` after the path has been read: the path must name an existing
      regular file with a `.csv` suffix, or nothing is loaded. Otherwise the lines are
      loaded onto the ledger; a parse error keeps what earlier lines appended and reports
      no count. */
  function Load(ledger: seq<Transaction>, path: string, entry: Option<Entry>, rd: Readers): (r: LoadOutcome)
    ensures r.InvalidFile? <==> entry.None? || !IsCsvPath(path) || entry.value.Directory?
    ensures r.Loaded? ==> var ks := Kinds(entry.value.lines, rd);
                          && FirstUnparsable(ks) == |ks|
                          && r.ledger == ledger + Appended(ks)
                          && |r.ledger| == |ledger| + r.count
    ensures r.Failed? ==> var ks := Kinds(entry.value.lines, rd);
                          var k := FirstUnparsable(ks);
                          && k < |ks|
                          && r.ledger == ledger + Appended(ks[..k])
  {
    if entry.None? || !IsCsvPath(path) || entry.value.Directory? then InvalidFile
    else
      LoadLinesMeaning(ledger, 0, entry.value.lines, rd);
      match LoadLines(Reading(ledger, 0), entry.value.lines, rd)
      case Reading(l, n) => Loaded(l, n)
      case Aborted(l) => Failed(l)
  }

  /** A load onto a ledger with comma-free categories leaves them comma-free. */
  lemma LoadKeepsCommaFree(ledger: seq<Transaction>, path: string, entry: Option<Entry>, rd: Readers)
    requires CategoriesCommaFree(ledger)
    ensures var o := Load(ledger, path, entry, rd);
            !o.InvalidFile? ==> CategoriesCommaFree(o.ledger)
  {
    if entry.Some? && entry.value.RegularFile? {
      LoadLinesKeepsCommaFree(Reading(ledger, 0), entry.value.lines, rd);
    }
  }

  /** A line that does not split into four fields is skipped. */
  lemma ClassifyOtherWidth(line: string, rd: Readers)
    requires |Split(line)| != 4
    ensures Classify(line, rd) == Skipped
  {
  }

  lemma KindsOfPair(a: string, b: string, rd: Readers)
    ensures Kinds([a, b], rd) == [Classify(a, rd), Classify(b, rd)]
  {
    assert Kinds([a, b], rd)[0] == Classify(a, rd);
    assert Kinds([a, b], rd)[1] == Classify(b, rd);
  }

  lemma LoadedPair(t: Transaction)
    ensures FirstUnparsable([Parsed(t), Skipped]) == 2
    ensures Appended([Parsed(t), Skipped]) == [t]
  {
    var ks := [Parsed(t), Skipped];
    assert ks[1..] == [Skipped] && ks[1..][1..] == [];
    assert Appended(ks[1..]) == [] + Appended(ks[1..][1..]);
    assert Appended(ks) == [t] + Appended(ks[1..]);
  }

  lemma FailedPair(t: Transaction)
    ensures FirstUnparsable([Parsed(t), Unparsable]) == 1
    ensures Appended([Parsed(t), Unparsable][..1]) == [t]
  {
    var ks := [Parsed(t), Unparsable];
    assert ks[1..] == [Unparsable];
    assert ks[..1] == [Parsed(t)] && ks[..1][1..] == [];
  }

  /** A file of one well-formed line and one line that does not split into four fields
      loads one entry and reports a count of one. */
  lemma GoodLineThenShortLine(ledger: seq<Transaction>, path: string, good: string, short: string, rd: Readers)
    requires IsCsvPath(path)
    requires Classify(good, rd).Parsed? && |Split(short)| != 4
    ensures Load(ledger, path, Some(RegularFile([good, short])), rd)
            == Loaded(ledger + [Classify(good, rd).t], 1)
  {
    var t := Classify(good, rd).t;
    KindsOfPair(good, short, rd);
    ClassifyOtherWidth(short, rd);
    LoadedPair(t);
    var r := Load(ledger, path, Some(RegularFile([good, short])), rd);
    assert r.Loaded? && r.ledger == ledger + [t];
  }

  /** A file whose second line has an unparsable field stops the load there, keeping the
      entry of the first line and reporting no count. */
  lemma GoodLineThenUnparsableLine(ledger: seq<Transaction>, path: string, good: string, bad: string, rd: Readers)
    requires IsCsvPath(path)
    requires Classify(good, rd).Parsed? && Classify(bad, rd).Unparsable?
    ensures Load(ledger, path, Some(RegularFile([good, bad])), rd)
            == Failed(ledger + [Classify(good, rd).t])
  {
    var t := Classify(good, rd).t;
    KindsOfPair(good, bad, rd);
    FailedPair(t);
    var r := Load(ledger, path, Some(RegularFile([good, bad])), rd);
    assert r.Failed?;
  }

  /** An entry whose category has no comma is saved as a line that splits back into exactly
      the four fields written. */
  lemma RecordLineFields(t: Transaction)
    requires CommaFree(t.category)
    ensures Split(RecordLine(t)) == RecordFields(t)
  {
    var date, amount, flag := IsoText(t.date), CentsText(t.amount), BoolText(t.isIncome);
    var fs := [date, amount, t.category, flag];
    IsoTextCommaFree(t.date);
    CentsTextCommaFree(t.amount);
    assert CommaFree(flag);
    forall j | 0 <= j < |fs|
      ensures CommaFree(fs[j])
    {
    }
    SplitJoin(fs);
  }

  /** A saved line is refused by a day-first date reader, so load stops at it. */
  lemma SavedLineUnparsable(t: Transaction, rd: Readers)
    requires ReadsDayFirst(rd.date)
    requires CommaFree(t.category)
    ensures Classify(RecordLine(t), rd) == Unparsable
  {
    RecordLineFields(t);
    IsoTextNotDayFirst(t.date);
    assert rd.date(IsoText(t.date)).None?;
  }

  /** As written, save and load disagree on the date format: a saved non-empty ledger
      (whose first category has no comma) makes load stop at its first line, appending
      nothing and reporting no count, whatever the day-first date reader is. */
  lemma SaveThenLoadAborts(ledger: seq<Transaction>, onto: seq<Transaction>, count: nat, rd: Readers)
    requires ReadsDayFirst(rd.date)
    requires |ledger| > 0 && CommaFree(ledger[0].category)
    ensures LoadLines(Reading(onto, count), SaveLines(ledger), rd) == Aborted(onto)
  {
    var lines := SaveLines(ledger);
    SavedLineUnparsable(ledger[0], rd);
    assert LoadStep(Reading(onto, count), lines[0], rd) == Aborted(onto);
  }

  /** With readers that invert the save format, a saved line parses back into its entry. */
  lemma ClassifyRecordLine(t: Transaction, rd: Readers)
    requires rd.date(IsoText(t.date)) == Some(t.date)
    requires rd.amount(CentsText(t.amount)) == Some(t.amount)
    requires CommaFree(t.category)
    ensures Classify(RecordLine(t), rd) == Parsed(t)
  {
    RecordLineFields(t);
    var fs := RecordFields(t);
    assert ParseBool(BoolText(t.isIncome)) == t.isIncome;
    assert ParseRecord(fs, rd) == Some(t);
  }

  predicate InvertsSaveFormat(rd: Readers, ledger: seq<Transaction>) {
    forall i | 0 <= i < |ledger| ::
      && rd.date(IsoText(ledger[i].date)) == Some(ledger[i].date)
      && rd.amount(CentsText(ledger[i].amount)) == Some(ledger[i].amount)
      && CommaFree(ledger[i].category)
  }

  lemma SavedKinds(ledger: seq<Transaction>, rd: Readers)
    requires InvertsSaveFormat(rd, ledger)
    ensures forall i | 0 <= i < |ledger| :: Kinds(SaveLines(ledger), rd)[i] == Parsed(ledger[i])
  {
    forall i | 0 <= i < |ledger|
      ensures Kinds(SaveLines(ledger), rd)[i] == Parsed(ledger[i])
    {
      ClassifyRecordLine(ledger[i], rd);
    }
  }

  lemma {:induction false} AdvanceAllParsed(ks: seq<LineKind>, ledger: seq<Transaction>, onto: seq<Transaction>, count: nat)
    requires |ks| == |ledger|
    requires forall i | 0 <= i < |ks| :: ks[i] == Parsed(ledger[i])
    ensures AdvanceAll(Reading(onto, count), ks) == Reading(onto + ledger, count + |ledger|)
    decreases |ks|
  {
    if |ks| == 0 {
      assert onto + ledger == onto;
    } else {
      AdvanceAllParsed(ks[1..], ledger[1..], onto + [ledger[0]], count + 1);
      assert onto + [ledger[0]] + ledger[1..] == onto + ledger;
    }
  }

  /** With a date reader for the format save writes and an amount reader for two-decimal
      amounts, loading a saved ledger appends exactly that ledger, in order, and counts
      every entry. */
  lemma SaveThenLoadRoundTrip(ledger: seq<Transaction>, onto: seq<Transaction>, count: nat, rd: Readers)
    requires forall d :: rd.date(IsoText(d)) == Some(d)
    requires forall a :: rd.amount(CentsText(a)) == Some(a)
    requires forall i | 0 <= i < |ledger| :: CommaFree(ledger[i].category)
    ensures LoadLines(Reading(onto, count), SaveLines(ledger), rd) == Reading(onto + ledger, count + |ledger|)
  {
    SavedKinds(ledger, rd);
    LoadLinesByKinds(Reading(onto, count), SaveLines(ledger), rd);
    AdvanceAllParsed(Kinds(SaveLines(ledger), rd), ledger, onto, count);
  }

  /** The same at the level of a file: a `.csv` file holding a saved ledger loads as
      that ledger, appended in order, with every entry counted. */
  lemma {:induction false} LoadSavedFile(ledger: seq<Transaction>, onto: seq<Transaction>, path: string, rd: Readers)
    requires IsCsvPath(path)
    requires forall d :: rd.date(IsoText(d)) == Some(d)
    requires forall a :: rd.amount(CentsText(a)) == Some(a)
    requires forall i | 0 <= i < |ledger| :: CommaFree(ledger[i].category)
    ensures Load(onto, path, Some(RegularFile(SaveLines(ledger))), rd) == Loaded(onto + ledger, |ledger|)
  {
    var lines := SaveLines(ledger);
    SaveThenLoadRoundTrip(ledger, onto, 0, rd);
    assert LoadLines(Reading(onto, 0), lines, rd) == Reading(onto + ledger, |ledger|);
    LoadOfRegularFile(onto, path, lines, rd);
  }

  /** A `.csv` file whose load loop completes is loaded with the loop's entries and count. */
  lemma LoadOfRegularFile(onto: seq<Transaction>, path: string, lines: seq<string>, rd: Readers)
    requires IsCsvPath(path)
    ensures var st := LoadLines(Reading(onto, 0), lines, rd);
            st.Reading? ==> Load(onto, path, Some(RegularFile(lines)), rd) == Loaded(st.ledger, st.count)
  {
  }

  /** The ISO reader of `Dates` is such a date reader. */
  lemma IsoReaderSuitsRoundTrip()
    ensures forall d :: ReadIso(IsoText(d)) == Some(d)
  {
    forall d {
      ReadIsoInvertsIsoText(d);
    }
  }

  /** The readers of the corrected program: dates in the ISO form save writes, amounts
      with two decimals. */
  const SaveFormat: Readers := Readers(ReadIso, ReadCents)

  /** With the readers of the corrected program, loading a saved ledger with comma-free
      categories appends exactly that ledger, in order, and counts every entry. */
  lemma CorrectedLoadRoundTrip(ledger: seq<Transaction>, onto: seq<Transaction>, count: nat)
    requires CategoriesCommaFree(ledger)
    ensures LoadLines(Reading(onto, count), SaveLines(ledger), SaveFormat)
            == Reading(onto + ledger, count + |ledger|)
  {
    IsoReaderSuitsRoundTrip();
    CentsReaderSuitsRoundTrip();
    SaveThenLoadRoundTrip(ledger, onto, count, SaveFormat);
  }

  /** The two-decimal reader of `Money` is such an amount reader. */
  lemma CentsReaderSuitsRoundTrip()
    ensures forall a :: ReadCents(CentsText(a)) == Some(a)
  {
    forall a {
      ReadCentsInvertsCentsText(a);
    }
  }
}

=== FILE: dates.dfy ===
/** Calendar dates (`java.time.LocalDate` without time or zone), their ISO text as
    `LocalDate.toString` writes it, and what the `dd-MM-yyyy` pattern demands of a
    text it accepts. The parsers themselves are library code and stay abstract. */
module Dates {
  import opened Wrappers
  import opened Numerals
  import opened Text

  type Month = m: int | 1 <= m <= 12 witness 1
  type Day = d: int | 1 <= d <= 31 witness 1

  datatype Date = Date(year: int, month: Month, day: Day)

  /** The year as `LocalDate.toString` writes it: at least four digits, a minus sign for
      years before year 0, and a plus sign for years beyond 9999. */
  function YearText(y: int): (s: string)
    ensures |s| >= 4
  {
    if -1000 < y < 0 then "-" + ZeroPad(NatText(-y), 4)
    else if 0 <= y < 1000 then ZeroPad(NatText(y), 4)
    else if y > 9999 then (NatTextOfThousands(y); "+" + NatText(y))
    else if y < 0 then (NatTextOfThousands(-y); "-" + NatText(-y))
    else (NatTextOfThousands(y); NatText(y))
  }

  /** `LocalDate.toString`: `yyyy-MM-dd`, month and day zero-padded to two digits. The
      text ends with the month and the day as two-digit fields, each after a hyphen. */
  function IsoText(d: Date): (s: string)
    ensures |s| >= 10 && s[|s| - 6] == '-' && s[|s| - 3] == '-'
    ensures AllDigits(s[|s| - 5..|s| - 3]) && DigitsValue(s[|s| - 5..|s| - 3]) == d.month
    ensures AllDigits(s[|s| - 2..]) && DigitsValue(s[|s| - 2..]) == d.day
  {
    var yt, mt, dt := YearText(d.year), TwoDigits(d.month), TwoDigits(d.day);
    TwoFieldTail(yt, mt, dt);
    yt + "-" + mt + "-" + dt
  }

  /** Where the last two fields of `y-m-d` sit when both are two chars wide. */
  lemma TwoFieldTail(y: string, m: string, d: string)
    requires |m| == 2 && |d| == 2
    ensures var s := y + "-" + m + "-" + d;
            && |s| == |y| + 6 && s[|s| - 6] == '-' && s[|s| - 3] == '-'
            && s[|s| - 5..|s| - 3] == m && s[|s| - 2..] == d
  {
    var s := y + "-" + m + "-" + d;
    assert s[|s| - 5..|s| - 3] == m;
    assert s[|s| - 2..] == d;
  }

  /** Reads a year as `YearText` writes it: digits, optionally after a '-' or '+' sign. */
  function ReadYear(s: string): (r: Option<int>)
    ensures r.Some? ==> |s| > 0
    ensures r.Some? && r.value < 0 ==> s[0] == '-'
  {
    if |s| > 1 && (s[0] == '-' || s[0] == '+') && AllDigits(s[1..]) then
      var v: int := DigitsValue(s[1..]);
      Some(if s[0] == '-' then -v else v)
    else if |s| > 0 && AllDigits(s) then Some(DigitsValue(s))
    else None
  }

  /** A reader for the text `IsoText` writes, `year-MM-dd`: the last two fields are
      two digits each after a hyphen, and a month or day out of range is refused. */
  function ReadIso(s: string): (r: Option<Date>)
    ensures r.Some? ==> |s| >= 10 && s[|s| - 6] == '-' && s[|s| - 3] == '-'
  {
    if |s| < 10 || s[|s| - 6] != '-' || s[|s| - 3] != '-'
       || !AllDigits(s[|s| - 5..|s| - 3]) || !AllDigits(s[|s| - 2..])
    then None
    else
      var m, dd := DigitsValue(s[|s| - 5..|s| - 3]), DigitsValue(s[|s| - 2..]);
      match ReadYear(s[..|s| - 6])
      case None => None
      case Some(y) => if 1 <= m <= 12 && 1 <= dd <= 31 then Some(Date(y, m, dd)) else None
  }

  lemma ReadYearMinus(digits: string)
    requires |digits| > 0 && AllDigits(digits)
    ensures ReadYear("-" + digits) == Some(-(DigitsValue(digits) as int))
  {
    assert ("-" + digits)[1..] == digits;
  }

  lemma ReadYearPlus(digits: string)
    requires |digits| > 0 && AllDigits(digits)
    ensures ReadYear("+" + digits) == Some(DigitsValue(digits) as int)
  {
    assert ("+" + digits)[1..] == digits;
  }

  lemma ReadYearUnsigned(digits: string)
    requires |digits| > 0 && AllDigits(digits)
    ensures ReadYear(digits) == Some(DigitsValue(digits) as int)
  {
    assert IsDigit(digits[0]);
  }

  lemma ReadPaddedYear(y: int)
    requires -1000 < y < 1000
    ensures ReadYear(YearText(y)) == Some(y)
  {
    var n: nat := if y < 0 then -y else y;
    var p := ZeroPad(NatText(n), 4);
    ZeroPadValue(NatText(n), 4);
    DigitsValueOfNatText(n);
    if y < 0 {
      assert YearText(y) == "-" + p;
      ReadYearMinus(p);
    } else {
      assert YearText(y) == p;
      ReadYearUnsigned(p);
    }
  }

  lemma ReadWideYear(y: int)
    requires y <= -1000 || 1000 <= y
    ensures ReadYear(YearText(y)) == Some(y)
  {
    var n: nat := if y < 0 then -y else y;
    DigitsValueOfNatText(n);
    if y > 9999 {
      assert YearText(y) == "+" + NatText(n);
      ReadYearPlus(NatText(n));
    } else if y < 0 {
      assert YearText(y) == "-" + NatText(n);
      ReadYearMinus(NatText(n));
    } else {
      assert YearText(y) == NatText(n);
      ReadYearUnsigned(NatText(n));
    }
  }

  /** Every year text reads back as its year. */
  lemma ReadYearOfYearText(y: int)
    ensures ReadYear(YearText(y)) == Some(y)
  {
    if -1000 < y < 1000 {
      ReadPaddedYear(y);
    } else {
      ReadWideYear(y);
    }
  }

  /** `ReadIso` inverts `IsoText`: every date's ISO text reads back as that date. */
  lemma ReadIsoInvertsIsoText(d: Date)
    ensures ReadIso(IsoText(d)) == Some(d)
  {
    var yt, mt, dt := YearText(d.year), TwoDigits(d.month), TwoDigits(d.day);
    var s := IsoText(d);
    TwoFieldTail(yt, mt, dt);
    assert s == yt + "-" + mt + "-" + dt;
    assert s[..|s| - 6] == yt;
    ReadYearOfYearText(d.year);
  }

  /** Distinct dates have distinct ISO texts. */
  lemma IsoTextInjective(d1: Date, d2: Date)
    ensures IsoText(d1) == IsoText(d2) ==> d1 == d2
  {
    ReadIsoInvertsIsoText(d1);
    ReadIsoInvertsIsoText(d2);
  }

  /** A text the `dd-MM-yyyy` pattern can accept starts with a two-digit day and a
      hyphen: the day field is fixed-width, digits only, and no sign is allowed. */
  predicate StartsDayMonth(s: string) {
    |s| >= 3 && IsDigit(s[0]) && IsDigit(s[1]) && s[2] == '-'
  }

  /** What is known of `LocalDate.parse(text, ofPattern("dd-MM-yyyy"))`: it accepts only
      texts that start with a day field. */
  ghost predicate ReadsDayFirst(read: string -> Option<Date>) {
    forall s :: read(s).Some? ==> StartsDayMonth(s)
  }

  /** No ISO date text looks like the start of a day-first date: the third char is a
      year digit, or the text opens with a sign. */
  lemma IsoTextNotDayFirst(d: Date)
    ensures !StartsDayMonth(IsoText(d))
  {
    var y := d.year;
    var s := IsoText(d);
    var yt := YearText(y);
    assert s[..|yt|] == yt;
    if 0 <= y < 1000 {
      ZeroPadDigits(NatText(y), 4);
      assert IsDigit(yt[2]);
    } else if 1000 <= y <= 9999 {
      NatTextOfThousands(y);
      assert IsDigit(yt[2]);
    } else {
      assert yt[0] == '-' || yt[0] == '+';
    }
  }

  lemma DigitsCommaFree(s: string)
    requires AllDigits(s)
    ensures CommaFree(s)
  {
  }

  lemma YearTextCommaFree(y: int)
    ensures CommaFree(YearText(y))
  {
    if -1000 < y < 0 {
      ZeroPadDigits(NatText(-y), 4);
      DigitsCommaFree(ZeroPad(NatText(-y), 4));
      CommaFreeConcat("-", ZeroPad(NatText(-y), 4));
    } else if 0 <= y < 1000 {
      ZeroPadDigits(NatText(y), 4);
      DigitsCommaFree(ZeroPad(NatText(y), 4));
    } else if y > 9999 {
      DigitsCommaFree(NatText(y));
      CommaFreeConcat("+", NatText(y));
    } else if y < 0 {
      DigitsCommaFree(NatText(-y));
      CommaFreeConcat("-", NatText(-y));
    } else {
      DigitsCommaFree(NatText(y));
    }
  }

  /** An ISO date text never contains a comma. */
  lemma IsoTextCommaFree(d: Date)
    ensures CommaFree(IsoText(d))
  {
    var yt := YearText(d.year);
    var mt := TwoDigits(d.month);
    var dt := TwoDigits(d.day);
    YearTextCommaFree(d.year);
    DigitsCommaFree(mt);
    DigitsCommaFree(dt);
    CommaFreeConcat(yt, "-");
    CommaFreeConcat(yt + "-", mt);
    CommaFreeConcat(yt + "-" + mt, "-");
    CommaFreeConcat(yt + "-" + mt + "-", dt);
  }
}

=== FILE: input.dfy ===
/** The console validators, one input line at a time. In the source each (except the menu
    reader) loops, re-prompting until a line is accepted; `FirstAccepted` models that
    retry over the finite stream of lines still to be read. */
module Input {
  import opened Wrappers
  import opened Text
  import opened Dates
  import Categories

  /** `readMenuChoice`: the trimmed line as an integer, or -1 when it does not parse. */
  function MenuChoice(line: string, parseInt: string -> Option<int>): (choice: int)
    ensures parseInt(Trim(line)).Some? ==> choice == parseInt(Trim(line)).value
    ensures parseInt(Trim(line)).None? ==> choice == -1
  {
    parseInt(Trim(line)).GetOr(-1)
  }

  /** One attempt of `readValidDate`: the trimmed line under the `yyyy-MM-dd` reader. */
  function DateEntry(line: string, parseIsoDate: string -> Option<Date>): Option<Date> {
    parseIsoDate(Trim(line))
  }

  /** One attempt of `readPositiveDouble`: accepted exactly when the trimmed line parses
      to an amount greater than zero. */
  function AmountEntry(line: string, parseAmount: string -> Option<int>): (r: Option<int>)
    ensures r.Some? <==> parseAmount(Trim(line)).Some? && parseAmount(Trim(line)).value > 0
    ensures r.Some? ==> r == parseAmount(Trim(line)) && r.value > 0
  {
    match parseAmount(Trim(line))
    case Some(a) => if a > 0 then Some(a) else None
    case None => None
  }

  /** One attempt of `readValidIncomeCategory` / `readValidExpensesCategory`: the member of
      `cats` that equals the trimmed line ignoring case, in its canonical spelling. */
  function CategoryEntry(line: string, cats: seq<string>): (r: Option<string>)
    ensures r.Some? ==> r.value in cats && EqualsIgnoreCase(r.value, Trim(line))
    ensures r.None? <==> forall c | c in cats :: !EqualsIgnoreCase(c, Trim(line))
  {
    Categories.Lookup(Trim(line), cats)
  }

  /** One attempt of `readNonEmptyInput`: the trimmed line, refused when it is blank. */
  function NonEmptyEntry(line: string): (r: Option<string>)
    ensures r.Some? <==> !IsBlank(Trim(line))
    ensures r.Some? ==> r.value == Trim(line)
  {
    var t := Trim(line);
    if IsBlank(t) then None else Some(t)
  }

  /** An accepted non-empty entry is text that trimming leaves alone: it is not empty and
      neither starts nor ends with a trimmable char. */
  lemma NonEmptyEntryIsTrimmed(line: string)
    ensures NonEmptyEntry(line).Some? ==>
              var s := NonEmptyEntry(line).value;
              && |s| > 0 && Trim(s) == s
              && !IsTrimmable(s[0]) && !IsTrimmable(s[|s| - 1])
  {
    var t := Trim(line);
    if NonEmptyEntry(line).Some? {
      TrimIdempotent(line);
      assert |t| > 0;
    }
  }

  /** Every validator reads only the trimmed line: padding a line with trimmable chars, or
      removing them, never changes its answer. */
  lemma EntriesIgnorePadding(line: string, parseInt: string -> Option<int>,
                             parseIsoDate: string -> Option<Date>,
                             parseAmount: string -> Option<int>, cats: seq<string>)
    ensures MenuChoice(Trim(line), parseInt) == MenuChoice(line, parseInt)
    ensures DateEntry(Trim(line), parseIsoDate) == DateEntry(line, parseIsoDate)
    ensures AmountEntry(Trim(line), parseAmount) == AmountEntry(line, parseAmount)
    ensures CategoryEntry(Trim(line), cats) == CategoryEntry(line, cats)
    ensures NonEmptyEntry(Trim(line)) == NonEmptyEntry(line)
  {
    TrimIdempotent(line);
  }

  /** The retry loop: the index of the first line `accept` takes, or `|lines|` when the
      input runs out first. Every line before it was refused. */
  function FirstAccepted<T>(lines: seq<string>, accept: string -> Option<T>): (k: nat)
    ensures k <= |lines|
    ensures forall i | 0 <= i < k :: accept(lines[i]).None?
    ensures k < |lines| ==> accept(lines[k]).Some?
    decreases |lines|
  {
    if |lines| == 0 || accept(lines[0]).Some? then 0
    else 1 + FirstAccepted(lines[1..], accept)
  }

  /** Line `at` answers a prompt first shown when line `from` was next: `accept` takes it
      and refused every line in between. */
  predicate AnsweredAt<T>(lines: seq<string>, from: nat, at: nat, accept: string -> Option<T>) {
    && from <= at < |lines|
    && accept(lines[at]).Some?
    && forall i | from <= i < at :: accept(lines[i]).None?
  }

  /** Line `at` answers the prompt shown right after line `prev` answered the one before. */
  predicate AnswersNext<T>(lines: seq<string>, prev: nat, at: nat, accept: string -> Option<T>) {
    AnsweredAt(lines, prev + 1, at, accept)
  }

  /** A prompt first shown when line `from` was next is never answered: the input runs out. */
  predicate RunsOut<T>(lines: seq<string>, from: nat, accept: string -> Option<T>) {
    forall i | from <= i < |lines| :: accept(lines[i]).None?
  }

  /** A prompt has at most one answer. */
  lemma AnswerIsUnique<T>(lines: seq<string>, from: nat, a: nat, b: nat, accept: string -> Option<T>)
    requires AnsweredAt(lines, from, a, accept) && AnsweredAt(lines, from, b, accept)
    ensures a == b
  {
  }

  /** A prompt that is answered does not run out, and the other way round. */
  lemma AnsweredOrRunsOut<T>(lines: seq<string>, from: nat, at: nat, accept: string -> Option<T>)
    requires AnsweredAt(lines, from, at, accept)
    ensures !RunsOut(lines, from, accept)
  {
  }

  /** A value read from the console, and the index of the line after the one accepted. */
  datatype Read<T> = Read(value: T, next: nat)

  /** One prompt with its retries, shown when line `from` is next: the value of the line
      that answers it, or `None` when the input runs out first. */
  function ReadField<T>(lines: seq<string>, from: nat, accept: string -> Option<T>): (r: Option<Read<T>>)
    requires from <= |lines|
    ensures r.None? <==> RunsOut(lines, from, accept)
    ensures r.Some? ==> && from < r.value.next
                        && AnsweredAt(lines, from, r.value.next - 1, accept)
                        && accept(lines[r.value.next - 1]) == Some(r.value.value)
    decreases |lines| - from
  {
    if from == |lines| then None
    else if accept(lines[from]).Some? then Some(Read(accept(lines[from]).value, from + 1))
    else ReadField(lines, from + 1, accept)
  }

  /** The same in terms of the retry loop run from line `from` on. */
  lemma {:induction false} ReadFieldIsFirstAccepted<T>(lines: seq<string>, from: nat, accept: string -> Option<T>)
    requires from <= |lines|
    ensures var r := ReadField(lines, from, accept);
            var k := FirstAccepted(lines[from..], accept);
            && (r.None? <==> from + k == |lines|)
            && (r.Some? ==> r.value.next == from + k + 1)
    decreases |lines| - from
  {
    var rest := lines[from..];
    if from < |lines| {
      assert rest[0] == lines[from];
      if accept(lines[from]).None? {
        assert rest[1..] == lines[from + 1..];
        ReadFieldIsFirstAccepted(lines, from + 1, accept);
      }
    }
  }

  /** A prompt whose answer is line `at` reads that line's value and goes on after it. */
  lemma ReadFieldOfAnswer<T>(lines: seq<string>, from: nat, at: nat, accept: string -> Option<T>)
    requires AnsweredAt(lines, from, at, accept)
    ensures ReadField(lines, from, accept) == Some(Read(accept(lines[at]).value, at + 1))
  {
    var r := ReadField(lines, from, accept);
    AnsweredOrRunsOut(lines, from, at, accept);
    AnswerIsUnique(lines, from, at, r.value.next - 1, accept);
  }

  /** `FirstAccepted` over the lines from `from` on, in terms of the whole input. */
  lemma FirstAcceptedFrom<T>(lines: seq<string>, from: nat, accept: string -> Option<T>)
    requires from <= |lines|
    ensures var k := from + FirstAccepted(lines[from..], accept);
            && (k == |lines| <==> RunsOut(lines, from, accept))
            && (k < |lines| ==> AnsweredAt(lines, from, k, accept))
  {
    var rest := lines[from..];
    var k := FirstAccepted(rest, accept);
    forall i | from <= i < from + k
      ensures accept(lines[i]).None?
    {
      assert lines[i] == rest[i - from];
    }
    if from + k < |lines| {
      assert lines[from + k] == rest[k];
    }
  }
}

=== FILE: money.dfy ===
/** Amounts of money as whole cents, written the way `%.2f` writes them (with a '.'
    decimal separator), and a reader for exactly that shape. */
module Money {
  import opened Wrappers
  import opened Numerals
  import opened Text

  /** `String.format("%.2f", amount)` for an amount of `cents` hundredths. */
  function CentsText(cents: int): (s: string)
    ensures |s| >= 4 && s[|s| - 3] == '.' && AllDigits(s[|s| - 2..])
    ensures DigitsValue(s[|s| - 2..]) == (if cents < 0 then -cents else cents) % 100
    ensures s[0] == '-' <==> cents < 0
  {
    var m := if cents < 0 then -cents else cents;
    var units, frac := NatText(m / 100), TwoDigits(m % 100);
    var s := (if cents < 0 then "-" else "") + units + "." + frac;
    assert s[|s| - 2..] == frac;
    assert s[0] == '-' <==> cents < 0 by {
      if cents >= 0 { assert s[0] == units[0]; }
    }
    s
  }

  /** The digits between the sign and the point are the whole units of the amount. */
  lemma CentsTextUnits(cents: int)
    ensures var s, start := CentsText(cents), if cents < 0 then 1 else 0;
            && start < |s| - 3 && AllDigits(s[start..|s| - 3])
            && DigitsValue(s[start..|s| - 3]) == (if cents < 0 then -cents else cents) / 100
  {
    var m := if cents < 0 then -cents else cents;
    var sign, units := if cents < 0 then "-" else "", NatText(m / 100);
    var s := CentsText(cents);
    assert s == sign + units + "." + TwoDigits(m % 100);
    assert s[|sign|..|s| - 3] == units;
    DigitsValueOfNatText(m / 100);
  }

  /** Reads `[-]digits.dd` back into cents; any other shape is refused. */
  function ReadCents(s: string): (r: Option<int>)
    ensures r.Some? ==> |s| >= 4 && s[|s| - 3] == '.'
  {
    if |s| < 4 || s[|s| - 3] != '.' || !AllDigits(s[|s| - 2..]) then None
    else ReadWholeAndCents(s[..|s| - 3], s[|s| - 2..])
  }

  /** The amount of an optionally signed run of digits followed by two cent digits. */
  function ReadWholeAndCents(whole: string, frac: string): Option<int>
    requires AllDigits(frac)
  {
    if |whole| > 0 && whole[0] == '-' then
      match ReadUnsigned(whole[1..], frac)
      case Some(m) => Some(-m)
      case None => None
    else ReadUnsigned(whole, frac)
  }

  /** The amount of a non-empty run of digits followed by two cent digits. */
  function ReadUnsigned(units: string, frac: string): Option<int>
    requires AllDigits(frac)
  {
    if |units| == 0 || !AllDigits(units) then None
    else Some(100 * DigitsValue(units) + DigitsValue(frac))
  }

  lemma ReadCentsShape(whole: string, frac: string)
    requires |whole| >= 1 && |frac| == 2 && AllDigits(frac)
    ensures ReadCents(whole + "." + frac) == ReadWholeAndCents(whole, frac)
  {
    var s := whole + "." + frac;
    assert s[|s| - 3] == '.';
    assert s[|s| - 2..] == frac;
    assert s[..|s| - 3] == whole;
  }

  lemma ReadNegative(units: string, frac: string)
    requires |units| > 0 && AllDigits(units) && AllDigits(frac)
    ensures ReadWholeAndCents("-" + units, frac) == Some(-(100 * DigitsValue(units) + DigitsValue(frac)))
  {
    var whole := "-" + units;
    assert whole[0] == '-' && whole[1..] == units;
  }

  lemma ReadNonNegative(units: string, frac: string)
    requires |units| > 0 && AllDigits(units) && AllDigits(frac)
    ensures ReadWholeAndCents(units, frac) == Some(100 * DigitsValue(units) + DigitsValue(frac))
  {
    assert units[0] != '-' by { assert IsDigit(units[0]); }
  }

  /** Reading a signed whole part and two cent digits gives the amount they denote. */
  lemma ReadCentsOfNegative(q: nat, rr: nat)
    requires rr < 100
    ensures ReadCents("-" + NatText(q) + "." + TwoDigits(rr)) == Some(-(100 * q + rr))
  {
    var units, frac := NatText(q), TwoDigits(rr);
    DigitsValueOfNatText(q);
    ReadNegative(units, frac);
    ReadCentsShape("-" + units, frac);
  }

  lemma ReadCentsOfNonNegative(q: nat, rr: nat)
    requires rr < 100
    ensures ReadCents(NatText(q) + "." + TwoDigits(rr)) == Some(100 * q + rr)
  {
    var units, frac := NatText(q), TwoDigits(rr);
    DigitsValueOfNatText(q);
    ReadNonNegative(units, frac);
    ReadCentsShape(units, frac);
  }

  /** Every amount written with two decimals is read back exactly. */
  lemma ReadCentsInvertsCentsText(cents: int)
    ensures ReadCents(CentsText(cents)) == Some(cents)
  {
    var m := if cents < 0 then -cents else cents;
    var q, rr := m / 100, m % 100;
    assert m == 100 * q + rr;
    if cents < 0 {
      assert CentsText(cents) == "-" + NatText(q) + "." + TwoDigits(rr);
      ReadCentsOfNegative(q, rr);
    } else {
      assert CentsText(cents) == NatText(q) + "." + TwoDigits(rr);
      ReadCentsOfNonNegative(q, rr);
    }
  }

  /** An amount text never contains a comma. */
  lemma CentsTextCommaFree(cents: int)
    ensures CommaFree(CentsText(cents))
  {
    var m := if cents < 0 then -cents else cents;
    var sign := if cents < 0 then "-" else "";
    var units := NatText(m / 100);
    var frac := TwoDigits(m % 100);
    assert CentsText(cents) == sign + units + "." + frac;
    assert CommaFree(units) && CommaFree(frac);
    CommaFreeConcat(sign, units);
    CommaFreeConcat(sign + units, ".");
    CommaFreeConcat(sign + units + ".", frac);
  }
}

=== FILE: numerals.dfy ===
/** Decimal text of natural numbers, as `Integer.toString` / `%d` write it, and the
    value of a run of ASCII digits. */
module Numerals {

  predicate IsDigit(c: char) {
    '0' <= c <= '9'
  }

  predicate AllDigits(s: string) {
    forall i | 0 <= i < |s| :: IsDigit(s[i])
  }

  function DigitChar(n: nat): (c: char)
    requires n < 10
    ensures IsDigit(c) && DigitValue(c) == n
  {
    ('0' as int + n) as char
  }

  function DigitValue(c: char): nat
    requires IsDigit(c)
  {
    c as int - '0' as int
  }

  /** Decimal text without leading zeros ("0" for zero). */
  function NatText(n: nat): (s: string)
    ensures |s| >= 1 && AllDigits(s)
    decreases n
  {
    if n < 10 then [DigitChar(n)] else NatText(n / 10) + [DigitChar(n % 10)]
  }

  /** The number a run of digits denotes, most significant digit first. */
  function DigitsValue(s: string): nat
    requires AllDigits(s)
    decreases |s|
  {
    if |s| == 0 then 0 else 10 * DigitsValue(s[..|s| - 1]) + DigitValue(s[|s| - 1])
  }

  /** Reading the decimal text of a number gives the number back. */
  lemma {:induction false} DigitsValueOfNatText(n: nat)
    ensures DigitsValue(NatText(n)) == n
    decreases n
  {
    var s := NatText(n);
    if n >= 10 {
      DigitsValueOfNatText(n / 10);
      assert s[..|s| - 1] == NatText(n / 10);
    }
  }

  /** A number of at least four digits is written with at least four chars. */
  lemma NatTextOfThousands(n: nat)
    requires n >= 1000
    ensures |NatText(n)| >= 4
  {
    var a := n / 10;
    var b := a / 10;
    assert a >= 100 && b >= 10;
    assert |NatText(b)| == |NatText(b / 10)| + 1;
    assert |NatText(a)| == |NatText(b)| + 1;
    assert |NatText(n)| == |NatText(a)| + 1;
  }

  /** `s` preceded by enough zeros to be `width` chars long. */
  function ZeroPad(s: string, width: nat): (r: string)
    ensures |r| == if |s| < width then width else |s|
    ensures r[|r| - |s|..] == s
    ensures forall i | 0 <= i < |r| - |s| :: r[i] == '0'
  {
    var zeros := seq(if |s| < width then width - |s| else 0, _ => '0');
    assert (zeros + s)[|zeros|..] == s;
    zeros + s
  }

  /** Padding digits with zeros keeps them digits. */
  lemma ZeroPadDigits(s: string, width: nat)
    requires AllDigits(s)
    ensures AllDigits(ZeroPad(s, width))
  {
    var r := ZeroPad(s, width);
    forall i | 0 <= i < |r|
      ensures IsDigit(r[i])
    {
      if i >= |r| - |s| {
        assert r[i] == r[|r| - |s|..][i - (|r| - |s|)];
      }
    }
  }

  /** A run of zeros denotes zero. */
  lemma {:induction false} ZerosValue(z: string)
    requires forall i | 0 <= i < |z| :: z[i] == '0'
    ensures AllDigits(z) && DigitsValue(z) == 0
    decreases |z|
  {
    if |z| > 0 {
      ZerosValue(z[..|z| - 1]);
    }
  }

  /** Leading zeros do not change the value of a run of digits. */
  lemma {:induction false} LeadingZerosValue(z: string, s: string)
    requires forall i | 0 <= i < |z| :: z[i] == '0'
    requires AllDigits(s)
    ensures AllDigits(z + s) && DigitsValue(z + s) == DigitsValue(s)
    decreases |s|
  {
    if |s| == 0 {
      assert z + s == z;
      ZerosValue(z);
    } else {
      var zs := z + s;
      LeadingZerosValue(z, s[..|s| - 1]);
      assert zs[..|zs| - 1] == z + s[..|s| - 1];
      assert zs[|zs| - 1] == s[|s| - 1];
    }
  }

  /** Padding digits with zeros keeps their value. */
  lemma ZeroPadValue(s: string, width: nat)
    requires AllDigits(s)
    ensures AllDigits(ZeroPad(s, width)) && DigitsValue(ZeroPad(s, width)) == DigitsValue(s)
  {
    var r := ZeroPad(s, width);
    var k := |r| - |s|;
    assert r == r[..k] + r[k..];
    LeadingZerosValue(r[..k], s);
  }

  /** The two-digit text of a number below 100, zero-padded (`%02d`). */
  function TwoDigits(n: nat): (s: string)
    requires n < 100
    ensures |s| == 2 && AllDigits(s) && DigitsValue(s) == n
  {
    var s := [DigitChar(n / 10), DigitChar(n % 10)];
    assert s[..1] == [DigitChar(n / 10)];
    assert DigitsValue(s[..1]) == n / 10 by {
      assert s[..1][..0] == [];
    }
    s
  }
}

=== FILE: summary.dfy ===
/** The monthly summary: the ledger grouped by the (month, year) of each entry's date,
    with income, expenses and balance per group. The source keys groups by the text
    "<MONTH> <year>", which is one-to-one with the pair used here; it keeps the groups in
    a hash map, so the model keeps them in a `map` and promises no order. */
module Summary {
  import opened Dates
  import opened Transactions

  datatype MonthKey = MonthKey(month: Month, year: int)

  datatype Totals = Totals(income: int, expenses: int, balance: int)

  /** What the summary shows: a notice for an empty ledger, otherwise one line per group. */
  datatype Report = NoTransactions | Groups(totals: map<MonthKey, Totals>)

  function KeyOf(t: Transaction): MonthKey {
    MonthKey(t.date.month, t.date.year)
  }

  /** Sum of the amounts of the income entries. */
  function IncomeOf(ts: seq<Transaction>): int
    decreases |ts|
  {
    if |ts| == 0 then 0
    else IncomeOf(ts[..|ts| - 1]) + (if ts[|ts| - 1].isIncome then ts[|ts| - 1].amount else 0)
  }

  /** Sum of the amounts of the expense entries. */
  function ExpensesOf(ts: seq<Transaction>): int
    decreases |ts|
  {
    if |ts| == 0 then 0
    else ExpensesOf(ts[..|ts| - 1]) + (if ts[|ts| - 1].isIncome then 0 else ts[|ts| - 1].amount)
  }

  /** The entries of `ts` dated in month `k`, in ledger order. */
  function InMonth(ts: seq<Transaction>, k: MonthKey): seq<Transaction>
    decreases |ts|
  {
    if |ts| == 0 then []
    else InMonth(ts[..|ts| - 1], k) + (if KeyOf(ts[|ts| - 1]) == k then [ts[|ts| - 1]] else [])
  }

  /** The months in which the ledger has at least one entry. */
  function MonthsOf(ts: seq<Transaction>): set<MonthKey> {
    set t | t in ts :: KeyOf(t)
  }

  /** `Collectors.groupingBy`: each entry, in ledger order, appended to its month's list. */
  function Group(ts: seq<Transaction>): map<MonthKey, seq<Transaction>>
    decreases |ts|
  {
    if |ts| == 0 then map[]
    else
      var g := Group(ts[..|ts| - 1]);
      var t := ts[|ts| - 1];
      var k := KeyOf(t);
      g[k := (if k in g then g[k] else []) + [t]]
  }

  lemma MonthsOfSnoc(ts: seq<Transaction>)
    requires |ts| > 0
    ensures MonthsOf(ts) == MonthsOf(ts[..|ts| - 1]) + {KeyOf(ts[|ts| - 1])}
  {
    assert ts == ts[..|ts| - 1] + [ts[|ts| - 1]];
  }

  /** An entry lies in the group of its own month, as often as it occurs in the ledger, and
      in no other group. */
  lemma {:induction false} InMonthCount(ts: seq<Transaction>, k: MonthKey, t: Transaction)
    ensures multiset(InMonth(ts, k))[t] == if KeyOf(t) == k then multiset(ts)[t] else 0
    decreases |ts|
  {
    if |ts| > 0 {
      var init := ts[..|ts| - 1];
      InMonthCount(init, k, t);
      assert ts == init + [ts[|ts| - 1]];
    }
  }

  /** An entry lies in the group of month `k` exactly when it is in the ledger and dated in
      month `k`. */
  lemma InMonthMembership(ts: seq<Transaction>, k: MonthKey, t: Transaction)
    ensures t in InMonth(ts, k) <==> t in ts && KeyOf(t) == k
  {
    InMonthCount(ts, k, t);
  }

  /** The grouping has one group per month that occurs, and each group holds exactly the
      entries of that month in ledger order. */
  lemma {:induction false} GroupIsPartition(ts: seq<Transaction>)
    ensures Group(ts).Keys == MonthsOf(ts)
    ensures forall k | k in Group(ts) :: Group(ts)[k] == InMonth(ts, k)
    decreases |ts|
  {
    if |ts| > 0 {
      var init := ts[..|ts| - 1];
      var t := ts[|ts| - 1];
      GroupIsPartition(init);
      MonthsOfSnoc(ts);
      var g := Group(init);
      if KeyOf(t) !in g {
        forall u | u in init
          ensures KeyOf(u) != KeyOf(t)
        {
          assert KeyOf(u) in MonthsOf(init);
        }
        if InMonth(init, KeyOf(t)) != [] {
          var u := InMonth(init, KeyOf(t))[0];
          InMonthMembership(init, KeyOf(t), u);
        }
      }
    }
  }

  /** The totals the summary prints for one group of entries. */
  function TotalsOf(ts: seq<Transaction>): Totals {
    var income := IncomeOf(ts);
    var expenses := ExpensesOf(ts);
    Totals(income, expenses, income - expenses)
  }

  /** `displaySummary`: the notice exactly for an empty ledger; otherwise one group per
      month that occurs, whose income and expenses are the sums over that month's entries
      and whose balance is income minus expenses. */
  function Summarize(ts: seq<Transaction>): (r: Report)
    ensures r.NoTransactions? <==> |ts| == 0
    ensures r.Groups? ==> r.totals.Keys == MonthsOf(ts)
    ensures r.Groups? ==> forall k | k in r.totals ::
              && r.totals[k].income == IncomeOf(InMonth(ts, k))
              && r.totals[k].expenses == ExpensesOf(InMonth(ts, k))
              && r.totals[k].balance == r.totals[k].income - r.totals[k].expenses
  {
    var g := Group(ts);
    GroupIsPartition(ts);
    if |g| == 0 then
      NoTransactions
    else
      Groups(map k | k in g :: TotalsOf(g[k]))
  }

  lemma {:induction false} InMonthOfOneMonth(ts: seq<Transaction>, k: MonthKey)
    requires forall i | 0 <= i < |ts| :: KeyOf(ts[i]) == k
    ensures InMonth(ts, k) == ts
    decreases |ts|
  {
    if |ts| > 0 {
      InMonthOfOneMonth(ts[..|ts| - 1], k);
      assert ts[..|ts| - 1] + [ts[|ts| - 1]] == ts;
    }
  }

  lemma OneMonthKeys(ts: seq<Transaction>, k: MonthKey)
    requires |ts| > 0
    requires forall i | 0 <= i < |ts| :: KeyOf(ts[i]) == k
    ensures MonthsOf(ts) == {k}
  {
    assert KeyOf(ts[0]) == k;
  }

  lemma OneMonthTotals(ts: seq<Transaction>, k: MonthKey)
    requires |ts| > 0
    requires forall i | 0 <= i < |ts| :: KeyOf(ts[i]) == k
    ensures Summarize(ts).Groups? && Summarize(ts).totals.Keys == {k}
    ensures Summarize(ts).totals[k] == TotalsOf(ts)
  {
    OneMonthKeys(ts, k);
    InMonthOfOneMonth(ts, k);
  }

  /** A ledger whose entries all fall in one month is summarized as that single month,
      with the totals of the whole ledger. */
  lemma OneMonthSummary(ts: seq<Transaction>, k: MonthKey)
    requires |ts| > 0
    requires forall i | 0 <= i < |ts| :: KeyOf(ts[i]) == k
    ensures Summarize(ts) == Groups(map[k := TotalsOf(ts)])
  {
    OneMonthTotals(ts, k);
    var r := Summarize(ts);
    var expected := map[k := TotalsOf(ts)];
    assert r.totals.Keys == expected.Keys;
  }

  /** One income of 100.00 and one expense of 40.00 in the same month give that month
      income 100.00, expenses 40.00 and balance 60.00. */
  lemma SameMonthExample()
    ensures var ts := [Transaction(Date(2024, 3, 1), 10000, "Salary", true),
                       Transaction(Date(2024, 3, 15), 4000, "Food", false)];
            Summarize(ts) == Groups(map[MonthKey(3, 2024) := Totals(10000, 4000, 6000)])
  {
    var ts := [Transaction(Date(2024, 3, 1), 10000, "Salary", true),
               Transaction(Date(2024, 3, 15), 4000, "Food", false)];
    var k := MonthKey(3, 2024);
    assert KeyOf(ts[0]) == k && KeyOf(ts[1]) == k;
    OneMonthSummary(ts, k);
    assert ts[..1] == [ts[0]] && ts[..1][..0] == [];
    assert IncomeOf(ts) == 10000 && ExpensesOf(ts) == 4000;
  }
}

=== FILE: text.dfy ===
/** The string primitives of the Java library that the tracker relies on:
    `trim`, `isBlank`, ASCII `toLowerCase` / `equalsIgnoreCase`, `endsWith`
    and `split(",")`. */
module Text {

  /** `String.trim` strips every leading and trailing char whose code is at most U+0020. */
  predicate IsTrimmable(c: char) {
    c <= ' '
  }

  /** `Character.isWhitespace`: the space, line and paragraph separators other than the
      non-breaking ones (U+00A0, U+2007, U+202F), plus the ASCII controls
      U+0009..U+000D and U+001C..U+001F. */
  predicate IsJavaWhitespace(c: char) {
    var n := c as int;
    || (0x09 <= n <= 0x0D) || (0x1C <= n <= 0x20)
    || n == 0x1680 || (0x2000 <= n <= 0x2006) || (0x2008 <= n <= 0x200A)
    || n == 0x2028 || n == 0x2029 || n == 0x205F || n == 0x3000
  }

  /** `String.isBlank`: empty or whitespace only. */
  predicate IsBlank(s: string) {
    forall i | 0 <= i < |s| :: IsJavaWhitespace(s[i])
  }

  /** `String.trim`: `s` without its leading and trailing trimmable chars. */
  function Trim(s: string): (r: string)
    ensures |r| <= |s|
    ensures |r| > 0 ==> !IsTrimmable(r[0]) && !IsTrimmable(r[|r| - 1])
    decreases |s|
  {
    if |s| > 0 && IsTrimmable(s[0]) then Trim(s[1..])
    else if |s| > 0 && IsTrimmable(s[|s| - 1]) then Trim(s[..|s| - 1])
    else s
  }

  /** Trimming removes trimmable chars at the two ends and nothing else: the result is a
      slice of `s` with only trimmable chars around it. */
  lemma {:induction false} TrimIsTrimmedAt(s: string)
    ensures exists a :: TrimmedAt(s, a, Trim(s))
    decreases |s|
  {
    var r := Trim(s);
    if |s| > 0 && IsTrimmable(s[0]) {
      TrimIsTrimmedAt(s[1..]);
      var a :| TrimmedAt(s[1..], a, r);
      TrimmedAtFront(s, a, r);
    } else if |s| > 0 && IsTrimmable(s[|s| - 1]) {
      TrimIsTrimmedAt(s[..|s| - 1]);
      var a :| TrimmedAt(s[..|s| - 1], a, r);
      TrimmedAtBack(s, a, r);
    } else {
      assert TrimmedAt(s, 0, s);
    }
  }

  /** `r` is `s` with `a` trimmable chars removed in front and only trimmable chars
      removed at the back. */
  predicate TrimmedAt(s: string, a: int, r: string) {
    && 0 <= a <= a + |r| <= |s|
    && r == s[a..a + |r|]
    && (forall i | 0 <= i < a :: IsTrimmable(s[i]))
    && (forall i | a + |r| <= i < |s| :: IsTrimmable(s[i]))
  }

  lemma TrimmedAtFront(s: string, a: int, r: string)
    requires |s| > 0 && IsTrimmable(s[0]) && TrimmedAt(s[1..], a, r)
    ensures TrimmedAt(s, a + 1, r)
  {
    assert s[a + 1..a + 1 + |r|] == s[1..][a..a + |r|];
    forall i | 0 <= i < a + 1
      ensures IsTrimmable(s[i])
    {
      if i > 0 { assert s[i] == s[1..][i - 1]; }
    }
    forall i | a + 1 + |r| <= i < |s|
      ensures IsTrimmable(s[i])
    {
      assert s[i] == s[1..][i - 1];
    }
  }

  lemma TrimmedAtBack(s: string, a: int, r: string)
    requires |s| > 0 && IsTrimmable(s[|s| - 1]) && TrimmedAt(s[..|s| - 1], a, r)
    ensures TrimmedAt(s, a, r)
  {
    assert s[a..a + |r|] == s[..|s| - 1][a..a + |r|];
    forall i | 0 <= i < a
      ensures IsTrimmable(s[i])
    {
      assert s[i] == s[..|s| - 1][i];
    }
    forall i | a + |r| <= i < |s|
      ensures IsTrimmable(s[i])
    {
      if i < |s| - 1 { assert s[i] == s[..|s| - 1][i]; }
    }
  }

  /** Trimming twice is trimming once. */
  lemma TrimIdempotent(s: string)
    ensures Trim(Trim(s)) == Trim(s)
  {
    var t := Trim(s);
    if |t| > 0 {
      assert !IsTrimmable(t[0]) && !IsTrimmable(t[|t| - 1]);
    }
  }

  /** `Character.toLowerCase`, restricted to ASCII letters. */
  function Lower(c: char): char {
    if 'A' <= c <= 'Z' then (c as int + 32) as char else c
  }

  /** `String.toLowerCase` on ASCII text. */
  function ToLower(s: string): (r: string)
    ensures |r| == |s|
    ensures forall i | 0 <= i < |s| :: r[i] == Lower(s[i])
  {
    seq(|s|, i requires 0 <= i < |s| => Lower(s[i]))
  }

  /** `String.equalsIgnoreCase` on ASCII text: same length, equal char by char after
      lowering. */
  predicate EqualsIgnoreCase(a: string, b: string) {
    |a| == |b| && forall i | 0 <= i < |a| :: Lower(a[i]) == Lower(b[i])
  }

  /** Comparing ignoring case is comparing the lowered texts. */
  lemma EqualsIgnoreCaseIsLoweredEquality(a: string, b: string)
    ensures EqualsIgnoreCase(a, b) <==> ToLower(a) == ToLower(b)
  {
    if ToLower(a) == ToLower(b) {
      forall i | 0 <= i < |a|
        ensures Lower(a[i]) == Lower(b[i])
      {
        assert ToLower(a)[i] == ToLower(b)[i];
      }
    }
  }

  /** `String.endsWith`. */
  predicate EndsWith(s: string, suffix: string) {
    |suffix| <= |s| && s[|s| - |suffix|..] == suffix
  }

  predicate CommaFree(s: string) {
    forall i | 0 <= i < |s| :: s[i] != ','
  }

  lemma CommaFreeConcat(a: string, b: string)
    requires CommaFree(a) && CommaFree(b)
    ensures CommaFree(a + b)
  {
    forall i | 0 <= i < |a + b|
      ensures (a + b)[i] != ','
    {
      if i >= |a| { assert (a + b)[i] == b[i - |a|]; }
    }
  }

  /** Every piece between commas, empty pieces included. */
  function Pieces(s: string): (ps: seq<string>)
    ensures |ps| >= 1
    decreases |s|
  {
    if |s| == 0 then [""]
    else if s[0] == ',' then [""] + Pieces(s[1..])
    else
      var p := Pieces(s[1..]);
      [[s[0]] + p[0]] + p[1..]
  }

  /** The inverse of splitting: the fields joined with commas. */
  function Join(fs: seq<string>): string
    requires |fs| >= 1
    decreases |fs|
  {
    if |fs| == 1 then fs[0] else fs[0] + "," + Join(fs[1..])
  }

  /** The result of `String.split` with limit 0: trailing empty strings are dropped. */
  function DropTrailingEmpty(ps: seq<string>): (r: seq<string>)
    ensures r <= ps
    ensures |r| > 0 ==> r[|r| - 1] != ""
    ensures forall j | |r| <= j < |ps| :: ps[j] == ""
    decreases |ps|
  {
    if |ps| > 0 && ps[|ps| - 1] == "" then DropTrailingEmpty(ps[..|ps| - 1]) else ps
  }

  /** `String.split(",")`: a text without a comma is returned whole (so "" gives one
      empty field); otherwise the pieces with the trailing empty ones dropped (so
      "a,b,c," gives three fields and ",,," none). */
  function Split(s: string): seq<string> {
    var ps := Pieces(s);
    if |ps| == 1 then [s] else DropTrailingEmpty(ps)
  }

  /** No piece between commas holds a comma. */
  lemma {:induction false} PiecesCommaFree(s: string)
    ensures forall j | 0 <= j < |Pieces(s)| :: CommaFree(Pieces(s)[j])
    decreases |s|
  {
    if |s| > 0 {
      var p := Pieces(s[1..]);
      PiecesCommaFree(s[1..]);
      if s[0] != ',' {
        CommaFreeConcat([s[0]], p[0]);
      }
    }
  }

  /** No field of `split(",")` holds a comma: a text that is returned whole is the only
      piece there is. */
  lemma SplitCommaFree(s: string)
    ensures forall j | 0 <= j < |Split(s)| :: CommaFree(Split(s)[j])
  {
    var ps := Pieces(s);
    PiecesCommaFree(s);
    if |ps| == 1 {
      JoinOfPieces(s);
    } else {
      var fs := DropTrailingEmpty(ps);
      forall j | 0 <= j < |fs|
        ensures CommaFree(fs[j])
      {
        assert fs[j] == ps[j];
      }
    }
  }

  lemma {:induction false} PiecesOfCommaFree(a: string)
    requires CommaFree(a)
    ensures Pieces(a) == [a]
    decreases |a|
  {
    if |a| > 0 {
      PiecesOfCommaFree(a[1..]);
      assert [a[0]] + a[1..] == a;
    }
  }

  lemma {:induction false} PiecesAfterField(a: string, rest: string)
    requires CommaFree(a)
    ensures Pieces(a + "," + rest) == [a] + Pieces(rest)
    decreases |a|
  {
    var s := a + "," + rest;
    if |a| == 0 {
      assert s == "," + rest;
      assert s[1..] == rest;
    } else {
      assert s[0] == a[0];
      assert s[1..] == a[1..] + "," + rest;
      PiecesAfterField(a[1..], rest);
      assert [a[0]] + a[1..] == a;
    }
  }

  /** Splitting comma-free fields after joining them gives the fields back. */
  lemma {:induction false} PiecesOfJoin(fs: seq<string>)
    requires |fs| >= 1
    requires forall j | 0 <= j < |fs| :: CommaFree(fs[j])
    ensures Pieces(Join(fs)) == fs
    decreases |fs|
  {
    if |fs| == 1 {
      PiecesOfCommaFree(fs[0]);
    } else {
      PiecesOfJoin(fs[1..]);
      PiecesAfterField(fs[0], Join(fs[1..]));
      assert [fs[0]] + fs[1..] == fs;
    }
  }

  /** Joining the pieces of a text gives the text back. */
  lemma {:induction false} JoinOfPieces(s: string)
    ensures Join(Pieces(s)) == s
    decreases |s|
  {
    if |s| > 0 {
      JoinOfPieces(s[1..]);
      var p := Pieces(s[1..]);
      if s[0] == ',' {
        assert Pieces(s) == [""] + p;
        assert Pieces(s)[1..] == p;
        assert "" + "," + Join(p) == s;
      } else {
        var q := [[s[0]] + p[0]] + p[1..];
        assert Pieces(s) == q;
        if |p| == 1 {
          assert Join(q) == [s[0]] + p[0];
        } else {
          assert q[1..] == p[1..];
          assert Join(q) == [s[0]] + p[0] + "," + Join(p[1..]);
        }
        assert [s[0]] + s[1..] == s;
      }
    }
  }

  /** `split(",")` undoes joining at least two comma-free fields whose last one is not
      empty. */
  lemma SplitJoin(fs: seq<string>)
    requires |fs| >= 2
    requires forall j | 0 <= j < |fs| :: CommaFree(fs[j])
    requires fs[|fs| - 1] != ""
    ensures Split(Join(fs)) == fs
  {
    PiecesOfJoin(fs);
  }

  /** A trailing comma never adds a field: `split` drops the empty piece after it. */
  lemma SplitIgnoresTrailingComma(fs: seq<string>)
    requires |fs| >= 1
    requires forall j | 0 <= j < |fs| :: CommaFree(fs[j])
    requires fs[|fs| - 1] != ""
    ensures Split(Join(fs) + ",") == fs
  {
    var gs := fs + [""];
    JoinAppendEmpty(fs);
    AllCommaFreeSnocEmpty(fs);
    PiecesOfJoin(gs);
    DropTrailingEmptySnoc(fs);
  }

  lemma AllCommaFreeSnocEmpty(fs: seq<string>)
    requires forall j | 0 <= j < |fs| :: CommaFree(fs[j])
    ensures forall j | 0 <= j < |fs + [""]| :: CommaFree((fs + [""])[j])
  {
    var gs := fs + [""];
    forall j | 0 <= j < |gs|
      ensures CommaFree(gs[j])
    {
      if j < |fs| { assert gs[j] == fs[j]; }
    }
  }

  lemma DropTrailingEmptySnoc(fs: seq<string>)
    requires |fs| >= 1 && fs[|fs| - 1] != ""
    ensures DropTrailingEmpty(fs + [""]) == fs
  {
    var gs := fs + [""];
    assert gs[..|gs| - 1] == fs;
  }

  lemma {:induction false} JoinAppendEmpty(fs: seq<string>)
    requires |fs| >= 1
    ensures Join(fs + [""]) == Join(fs) + ","
    decreases |fs|
  {
    if |fs| == 1 {
      assert (fs + [""])[1..] == [""];
    } else {
      assert (fs + [""])[1..] == fs[1..] + [""];
      JoinAppendEmpty(fs[1..]);
    }
  }
}

=== FILE: tracker.dfy ===
/** The `ExpenseTracker` program: the menu loop and the five operations it dispatches to,
    over a world made of the ledger and the file system. The console is the finite
    sequence of lines still to be read; when it runs out, `Scanner.nextLine` throws and
    the program ends, which the model reports as `InputExhausted`. */
module Tracker {
  import opened Wrappers
  import opened Text
  import opened Dates
  import opened Transactions
  import opened Input
  import Summary
  import Csv
  import Categories
  import Money

  /** The menu's actions, and `Invalid` for any other choice. */
  datatype Action = AddIncome | AddExpense | ShowSummary | LoadFile | SaveFile | Exit | Invalid

  /** The `switch` of `main`: choices 1 to 6 in menu order, anything else invalid. */
  function ActionOf(choice: int): (a: Action)
    ensures a.Invalid? <==> !(1 <= choice <= 6)
  {
    if choice == 1 then AddIncome
    else if choice == 2 then AddExpense
    else if choice == 3 then ShowSummary
    else if choice == 4 then LoadFile
    else if choice == 5 then SaveFile
    else if choice == 6 then Exit
    else Invalid
  }

  /** The number the menu shows for an action. */
  function MenuNumber(a: Action): (n: int)
    requires !a.Invalid?
    ensures 1 <= n <= 6
  {
    match a
    case AddIncome => 1
    case AddExpense => 2
    case ShowSummary => 3
    case LoadFile => 4
    case SaveFile => 5
    case Exit => 6
  }

  /** Dispatch and the menu numbering are inverse: each of the six actions is reached by
      exactly its own number. */
  lemma DispatchMatchesMenu(a: Action, choice: int)
    ensures !a.Invalid? ==> ActionOf(MenuNumber(a)) == a
    ensures 1 <= choice <= 6 ==> MenuNumber(ActionOf(choice)) == choice
  {
  }

  /** A menu line that does not parse as an integer is an invalid choice. */
  lemma UnparseableChoiceIsInvalid(line: string, parseInt: string -> Option<int>)
    requires parseInt(Trim(line)).None?
    ensures ActionOf(MenuChoice(line, parseInt)).Invalid?
  {
  }

  /** The library parsers the program calls: `Integer.parseInt`, `LocalDate.parse` with the
      interactive `yyyy-MM-dd` pattern and with the load `dd-MM-yyyy` pattern, and
      `Double.parseDouble` (in cents). */
  datatype Env = Env(
    parseInt: string -> Option<int>,
    parseIsoDate: string -> Option<Date>,
    parseLoadDate: string -> Option<Date>,
    parseAmount: string -> Option<int>)

  /** The ledger and the file system. */
  datatype World = World(ledger: seq<Transaction>, files: map<string, Csv.Entry>)

  /** What `path` names in the file system, if anything. */
  function FileAt(w: World, path: string): Option<Csv.Entry> {
    if path in w.files then Some(w.files[path]) else None
  }

  /** The outcome line an operation prints. */
  datatype Message =
    | InvalidChoice
    | IncomeAdded
    | ExpenseAdded
    | SummaryShown(summary: Summary.Report)
    | InvalidFile
    | LoadedCount(count: nat)
    | LoadFailed
    | NotCsv
    | SaveCancelled
    | SavedTo(path: string)
    | SaveError
    | Farewell

  datatype Halt = Exited | InputExhausted

  /** The result of one menu round: the program goes on with the remaining input, or ends. */
  datatype Outcome =
    | Next(world: World, message: Message, rest: seq<string>)
    | Stop(world: World, why: Halt)

  /** The prompt of `readValidDate`. */
  function DatePrompt(env: Env): string -> Option<Date> {
    (line: string) => DateEntry(line, env.parseIsoDate)
  }

  /** The prompt of `readPositiveDouble`. */
  function AmountPrompt(env: Env): string -> Option<int> {
    (line: string) => AmountEntry(line, env.parseAmount)
  }

  /** The category list of the kind being added. */
  function KindCategories(income: bool): seq<string> {
    if income then Categories.Income else Categories.Expense
  }

  /** The category prompt over a list of categories. */
  function CategoryPrompt(cats: seq<string>): string -> Option<string> {
    (line: string) => CategoryEntry(line, cats)
  }

  /** An entry read from the console, with the lines that answered its three prompts. */
  datatype Entered = Entered(entry: Transaction, dateLine: nat, amountLine: nat, categoryLine: nat)

  /** The three prompts of `addIncome` / `addExpense`, in order: a date, a positive amount
      and a category from `cats`, each retried until a line is accepted. The
      entry holds the values of the three answering lines; the result is `None` when the
      input runs out first. */
  function ReadEntry(input: seq<string>, env: Env, cats: seq<string>, income: bool): (r: Option<Entered>)
    ensures r.Some? ==> && r.value.dateLine < r.value.amountLine < r.value.categoryLine < |input|
                        && r.value.entry.amount > 0
                        && r.value.entry.category in cats
                        && r.value.entry.isIncome == income
  {
    match ReadField(input, 0, DatePrompt(env))
    case None => None
    case Some(Read(date, u1)) =>
      match ReadField(input, u1, AmountPrompt(env))
      case None => None
      case Some(Read(amount, u2)) =>
        match ReadField(input, u2, CategoryPrompt(cats))
        case None => None
        case Some(Read(category, u3)) =>
          Some(Entered(Transaction(date, amount, category, income), u1 - 1, u2 - 1, u3 - 1))
  }

  /** The entry read holds the values of the lines that answer its three prompts, in
      order: the first line the date prompt accepts, then the first line after it that
      the amount prompt accepts, then the first line after that the category prompt
      accepts. */
  lemma ReadEntryAnswers(input: seq<string>, env: Env, cats: seq<string>, income: bool)
    ensures var r := ReadEntry(input, env, cats, income);
            r.Some? ==> var e := r.value;
            && AnsweredAt(input, 0, e.dateLine, DatePrompt(env))
            && AnsweredAt(input, e.dateLine + 1, e.amountLine, AmountPrompt(env))
            && AnsweredAt(input, e.amountLine + 1, e.categoryLine, CategoryPrompt(cats))
            && DatePrompt(env)(input[e.dateLine]) == Some(e.entry.date)
            && AmountPrompt(env)(input[e.amountLine]) == Some(e.entry.amount)
            && CategoryPrompt(cats)(input[e.categoryLine]) == Some(e.entry.category)
            && e.entry.isIncome == income
  {
  }

  /** Whenever the three prompts are answered, at lines `d`, `a` and `c`, the entry read is
      made of those lines' values. With `ReadEntry`'s contract: the result is `None`
      exactly when one of the prompts runs out of input. */
  lemma ReadEntryOfAnswers(input: seq<string>, env: Env, cats: seq<string>, income: bool, d: nat, a: nat, c: nat)
    requires AnsweredAt(input, 0, d, DatePrompt(env))
    requires AnsweredAt(input, d + 1, a, AmountPrompt(env))
    requires AnsweredAt(input, a + 1, c, CategoryPrompt(cats))
    ensures ReadEntry(input, env, cats, income) == Some(Entered(
              Transaction(DatePrompt(env)(input[d]).value, AmountPrompt(env)(input[a]).value,
                          CategoryPrompt(cats)(input[c]).value, income),
              d, a, c))
  {
    var r := ReadEntry(input, env, cats, income);
    if r.None? {
      ReadEntryFailed(input, env, cats, income);
      AnswersDoNotRunOut(input, env, cats, d, a, c);
      assert false;
    }
    ReadEntryAnswers(input, env, cats, income);
    var e := r.value;
    AnswerIsUnique(input, 0, d, e.dateLine, DatePrompt(env));
    AnswerIsUnique(input, d + 1, a, e.amountLine, AmountPrompt(env));
    AnswerIsUnique(input, a + 1, c, e.categoryLine, CategoryPrompt(cats));
  }

  /** When the three prompts are answered, none of them runs out of input. */
  lemma AnswersDoNotRunOut(input: seq<string>, env: Env, cats: seq<string>, d: nat, a: nat, c: nat)
    requires AnsweredAt(input, 0, d, DatePrompt(env))
    requires AnsweredAt(input, d + 1, a, AmountPrompt(env))
    requires AnsweredAt(input, a + 1, c, CategoryPrompt(cats))
    ensures !RunsOut(input, 0, DatePrompt(env))
    ensures forall d': nat | AnsweredAt(input, 0, d', DatePrompt(env)) ::
              && !RunsOut(input, d' + 1, AmountPrompt(env))
              && forall a': nat | AnswersNext(input, d', a', AmountPrompt(env)) ::
                   !RunsOut(input, a' + 1, CategoryPrompt(cats))
  {
    AnsweredOrRunsOut(input, 0, d, DatePrompt(env));
    forall d': nat | AnsweredAt(input, 0, d', DatePrompt(env))
      ensures !RunsOut(input, d' + 1, AmountPrompt(env))
      ensures forall a': nat | AnswersNext(input, d', a', AmountPrompt(env)) ::
                !RunsOut(input, a' + 1, CategoryPrompt(cats))
    {
      AnswerIsUnique(input, 0, d, d', DatePrompt(env));
      AnsweredOrRunsOut(input, d + 1, a, AmountPrompt(env));
      forall a': nat | AnswersNext(input, d', a', AmountPrompt(env))
        ensures !RunsOut(input, a' + 1, CategoryPrompt(cats))
      {
        AnswerIsUnique(input, d + 1, a, a', AmountPrompt(env));
        AnsweredOrRunsOut(input, a + 1, c, CategoryPrompt(cats));
      }
    }
  }

  /** Reading an entry fails exactly when one of its prompts runs out of input: the date
      prompt, the amount prompt after the date's answer, or the category prompt after the
      amount's answer. */
  lemma ReadEntryRunsOut(input: seq<string>, env: Env, cats: seq<string>, income: bool)
    ensures ReadEntry(input, env, cats, income).None? <==>
              || RunsOut(input, 0, DatePrompt(env))
              || exists d: nat | AnsweredAt(input, 0, d, DatePrompt(env)) ::
                   || RunsOut(input, d + 1, AmountPrompt(env))
                   || exists a: nat | AnswersNext(input, d, a, AmountPrompt(env)) ::
                        RunsOut(input, a + 1, CategoryPrompt(cats))
  {
    var r := ReadEntry(input, env, cats, income);
    if r.Some? {
      ReadEntryAnswered(input, env, cats, income);
    } else {
      ReadEntryFailed(input, env, cats, income);
    }
  }

  lemma ReadEntryAnswered(input: seq<string>, env: Env, cats: seq<string>, income: bool)
    requires ReadEntry(input, env, cats, income).Some?
    ensures !RunsOut(input, 0, DatePrompt(env))
    ensures forall d: nat | AnsweredAt(input, 0, d, DatePrompt(env)) ::
              && !RunsOut(input, d + 1, AmountPrompt(env))
              && forall a: nat | AnswersNext(input, d, a, AmountPrompt(env)) ::
                   !RunsOut(input, a + 1, CategoryPrompt(cats))
  {
    ReadEntryAnswers(input, env, cats, income);
    var e := ReadEntry(input, env, cats, income).value;
    AnswersDoNotRunOut(input, env, cats, e.dateLine, e.amountLine, e.categoryLine);
  }

  lemma ReadEntryFailed(input: seq<string>, env: Env, cats: seq<string>, income: bool)
    requires ReadEntry(input, env, cats, income).None?
    ensures || RunsOut(input, 0, DatePrompt(env))
            || exists d: nat | AnsweredAt(input, 0, d, DatePrompt(env)) ::
                 || RunsOut(input, d + 1, AmountPrompt(env))
                 || exists a: nat | AnswersNext(input, d, a, AmountPrompt(env)) ::
                      RunsOut(input, a + 1, CategoryPrompt(cats))
  {
    var rd := ReadField(input, 0, DatePrompt(env));
    if rd.Some? {
      var d := rd.value.next - 1;
      var ra := ReadField(input, d + 1, AmountPrompt(env));
      if ra.Some? {
        var a := ra.value.next - 1;
        assert AnswersNext(input, d, a, AmountPrompt(env));
        assert RunsOut(input, a + 1, CategoryPrompt(cats));
      }
      assert AnsweredAt(input, 0, d, DatePrompt(env));
    }
  }

  /** `addIncome` / `addExpense`: read an entry and append it to the ledger. The program
      goes on exactly when the entry could be read, and then the ledger is the old one
      with that entry at its end. */
  function AddEntry(w: World, input: seq<string>, env: Env, income: bool): (r: Outcome)
    ensures r.Next? <==> ReadEntry(input, env, KindCategories(income), income).Some?
    ensures r.Stop? ==> r == Stop(w, InputExhausted)
    ensures r.Next? ==> |r.rest| < |input| && |r.world.ledger| == |w.ledger| + 1
    ensures w.ledger <= r.world.ledger && r.world.files == w.files
    ensures ReadEntry(input, env, KindCategories(income), income).Some? ==>
              var e := ReadEntry(input, env, KindCategories(income), income).value;
              r == Next(w.(ledger := w.ledger + [e.entry]), if income then IncomeAdded else ExpenseAdded,
                        input[e.categoryLine + 1..])
  {
    match ReadEntry(input, env, KindCategories(income), income)
    case None => Stop(w, InputExhausted)
    case Some(e) =>
      Next(w.(ledger := w.ledger + [e.entry]), if income then IncomeAdded else ExpenseAdded,
           input[e.categoryLine + 1..])
  }

  /** The path prompt of load and save (`readNonEmptyInput`): the index of the first
      non-blank line, or `|input|` when every line is blank. */
  function PathLine(input: seq<string>): (k: nat)
    ensures k <= |input|
    ensures k < |input| ==> AnsweredAt(input, 0, k, NonEmptyEntry)
    ensures k == |input| <==> RunsOut(input, 0, NonEmptyEntry)
  {
    assert input[0..] == input;
    FirstAcceptedFrom(input, 0, NonEmptyEntry);
    FirstAccepted(input, NonEmptyEntry)
  }

  /** `loadTransactions`: read a path (the first non-blank line, trimmed), then load the
      file it names onto the ledger, reporting what `Csv.Load` reports. Only the ledger
      can change, and only by appending. */
  function LoadFlow(w: World, input: seq<string>, env: Env): (r: Outcome)
    ensures r.Stop? <==> PathLine(input) == |input|
    ensures r.Stop? ==> r == Stop(w, InputExhausted)
    ensures r.Next? ==> var k := PathLine(input);
                        var path := Trim(input[k]);
                        var o := Csv.Load(w.ledger, path, FileAt(w, path),
                                          Csv.Readers(env.parseLoadDate, env.parseAmount));
                        && r.rest == input[k + 1..]
                        && r.world.files == w.files
                        && (o.InvalidFile? ==> r.world == w && r.message == InvalidFile)
                        && (o.Loaded? ==> r.world.ledger == o.ledger && r.message == LoadedCount(o.count))
                        && (o.Failed? ==> r.world.ledger == o.ledger && r.message == LoadFailed)
    ensures r.Next? ==> && w.ledger <= r.world.ledger
                        && (r.message.LoadedCount? ==> |r.world.ledger| == |w.ledger| + r.message.count)
  {
    var kp := PathLine(input);
    if kp == |input| then Stop(w, InputExhausted)
    else
      var path := Trim(input[kp]);
      var rest := input[kp + 1..];
      match Csv.Load(w.ledger, path, FileAt(w, path), Csv.Readers(env.parseLoadDate, env.parseAmount))
      case InvalidFile => Next(w, InvalidFile, rest)
      case Loaded(l, n) => Next(w.(ledger := l), LoadedCount(n), rest)
      case Failed(l) => Next(w.(ledger := l), LoadFailed, rest)
  }

  /** The world after writing the ledger to `path`, or the reason it was not written:
      opening a directory for writing fails. */
  function Write(w: World, path: string, rest: seq<string>): (r: Outcome)
    ensures r.Next? && r.rest == rest && r.world.ledger == w.ledger
    ensures r.message.SaveError? <==> path in w.files && w.files[path].Directory?
    ensures !r.message.SaveError? ==>
              r.world.files == w.files[path := Csv.RegularFile(Csv.SaveLines(w.ledger))]
    ensures !r.message.SaveError? ==> r.message == SavedTo(path)
    ensures r.message.SaveError? ==> r.world == w
  {
    if path in w.files && w.files[path].Directory? then Next(w, SaveError, rest)
    else Next(w.(files := w.files[path := Csv.RegularFile(Csv.SaveLines(w.ledger))]), SavedTo(path), rest)
  }

  /** `saveTransactions` once the path is read: refuse a path without a `.csv` suffix; ask
      before overwriting anything the path names and go on only on "yes"; then write one
      line per entry in ledger order. The program stops only when the overwrite question
      finds no input left. */
  function SaveTo(w: World, path: string, rest: seq<string>): (r: Outcome)
    ensures r.Stop? <==> Csv.IsCsvPath(path) && path in w.files && |rest| == 0
    ensures r.Stop? ==> r.world == w && r.why == InputExhausted
    ensures !Csv.IsCsvPath(path) ==> r == Next(w, NotCsv, rest)
    ensures Csv.IsCsvPath(path) && path !in w.files ==> r == Write(w, path, rest)
    ensures Csv.IsCsvPath(path) && path in w.files && |rest| > 0 ==>
              r == if Csv.ConfirmsOverwrite(rest[0]) then Write(w, path, rest[1..])
                   else Next(w, SaveCancelled, rest[1..])
    ensures r.Next? ==> && |r.rest| <= |rest|
                        && r.world.ledger == w.ledger
                        && (r.world != w ==>
                              && Csv.IsCsvPath(path)
                              && r.world.files == w.files[path := Csv.RegularFile(Csv.SaveLines(w.ledger))]
                              && (path in w.files ==> |rest| > 0 && Csv.ConfirmsOverwrite(rest[0])))
  {
    if !Csv.IsCsvPath(path) then Next(w, NotCsv, rest)
    else if path in w.files then
      if |rest| == 0 then Stop(w, InputExhausted)
      else if !Csv.ConfirmsOverwrite(rest[0]) then Next(w, SaveCancelled, rest[1..])
      else Write(w, path, rest[1..])
    else Write(w, path, rest)
  }

  /** Load reads back what save wrote: once a save has written `path`, loading that path
      with readers for the format save writes appends the saved ledger, in order, to any
      ledger and counts every entry. */
  lemma SavedFileLoadsBack(w: World, path: string, rest: seq<string>, onto: seq<Transaction>, rd: Csv.Readers)
    requires SaveTo(w, path, rest).Next? && SaveTo(w, path, rest).message == SavedTo(path)
    requires forall d :: rd.date(IsoText(d)) == Some(d)
    requires forall a :: rd.amount(Money.CentsText(a)) == Some(a)
    requires forall i | 0 <= i < |w.ledger| :: CommaFree(w.ledger[i].category)
    ensures Csv.Load(onto, path, FileAt(SaveTo(w, path, rest).world, path), rd)
            == Csv.Loaded(onto + w.ledger, |w.ledger|)
  {
    SaveWroteLedger(w, path, rest);
    Csv.LoadSavedFile(w.ledger, onto, path, rd);
  }

  /** A save that reports writing `path` has written the ledger's lines there. */
  lemma SaveWroteLedger(w: World, path: string, rest: seq<string>)
    requires SaveTo(w, path, rest).Next? && SaveTo(w, path, rest).message == SavedTo(path)
    ensures Csv.IsCsvPath(path)
    ensures FileAt(SaveTo(w, path, rest).world, path) == Some(Csv.RegularFile(Csv.SaveLines(w.ledger)))
  {
  }

  /** `saveTransactions`: read a path (the first non-blank line, trimmed) and save to it.
      The ledger never changes, and the file system changes only at the path read. */
  function SaveFlow(w: World, input: seq<string>, env: Env): (r: Outcome)
    ensures PathLine(input) == |input| ==> r == Stop(w, InputExhausted)
    ensures PathLine(input) < |input| ==>
              r == SaveTo(w, Trim(input[PathLine(input)]), input[PathLine(input) + 1..])
    ensures r.Stop? ==> r.world == w && r.why == InputExhausted
    ensures r.Next? ==> && |r.rest| < |input|
                        && r.world.ledger == w.ledger
                        && PathLine(input) < |input|
                        && var path := Trim(input[PathLine(input)]);
                           && (!Csv.IsCsvPath(path) ==> r.world == w && r.message == NotCsv)
                           && (r.world != w ==>
                                 && Csv.IsCsvPath(path)
                                 && r.world.files == w.files[path := Csv.RegularFile(Csv.SaveLines(w.ledger))])
  {
    if PathLine(input) == |input| then Stop(w, InputExhausted)
    else SaveTo(w, Trim(input[PathLine(input)]), input[PathLine(input) + 1..])
  }

  /** The `switch` of `main`: run the operation of the chosen action on the rest of the
      input. */
  function Dispatch(w: World, action: Action, rest: seq<string>, env: Env): (r: Outcome)
    ensures r.Next? ==> |r.rest| <= |rest| && !r.message.Farewell?
    ensures w.ledger <= r.world.ledger
    ensures r.Stop? ==> r.world == w
    ensures action.AddIncome? ==> r == AddEntry(w, rest, env, true)
    ensures action.AddExpense? ==> r == AddEntry(w, rest, env, false)
    ensures action.ShowSummary? ==> r == Next(w, SummaryShown(Summary.Summarize(w.ledger)), rest)
    ensures action.LoadFile? ==> r == LoadFlow(w, rest, env)
    ensures action.SaveFile? ==> r == SaveFlow(w, rest, env)
    ensures action.Exit? ==> r == Stop(w, Exited)
    ensures action.Invalid? ==> r == Next(w, InvalidChoice, rest)
    ensures action.SaveFile? ==> r.world.ledger == w.ledger
    ensures !action.SaveFile? ==> r.world.files == w.files
  {
    match action
    case AddIncome => AddEntry(w, rest, env, true)
    case AddExpense => AddEntry(w, rest, env, false)
    case ShowSummary => Next(w, SummaryShown(Summary.Summarize(w.ledger)), rest)
    case LoadFile => LoadFlow(w, rest, env)
    case SaveFile => SaveFlow(w, rest, env)
    case Exit => Stop(w, Exited)
    case Invalid => Next(w, InvalidChoice, rest)
  }

  /** One round of `main`: read the menu choice and run the chosen operation. */
  function Step(w: World, input: seq<string>, env: Env): (r: Outcome)
    ensures |input| == 0 ==> r == Stop(w, InputExhausted)
    ensures r.Next? ==> |r.rest| < |input| && !r.message.Farewell?
    ensures w.ledger <= r.world.ledger
    ensures r.Stop? ==> r.world == w
    ensures |input| > 0 ==>
              var action := ActionOf(MenuChoice(input[0], env.parseInt));
              && (action.AddIncome? ==> r == AddEntry(w, input[1..], env, true))
              && (action.AddExpense? ==> r == AddEntry(w, input[1..], env, false))
              && (action.ShowSummary? ==> r == Next(w, SummaryShown(Summary.Summarize(w.ledger)), input[1..]))
              && (action.LoadFile? ==> r == LoadFlow(w, input[1..], env))
              && (action.SaveFile? ==> r == SaveFlow(w, input[1..], env))
              && (action.Exit? ==> r == Stop(w, Exited))
              && (action.Invalid? ==> r == Next(w, InvalidChoice, input[1..]))
              && (action.SaveFile? ==> r.world.ledger == w.ledger)
              && (!action.SaveFile? ==> r.world.files == w.files)
  {
    if |input| == 0 then Stop(w, InputExhausted)
    else Dispatch(w, ActionOf(MenuChoice(input[0], env.parseInt)), input[1..], env)
  }

  /** A whole run: the final world, every message printed, and why the program ended. */
  datatype Run = Run(world: World, messages: seq<Message>, why: Halt)

  /** `main`'s endless loop, over the finite console input: rounds follow each other until
      the user exits, which prints the farewell, or the input runs out. Every round reads
      at least one line and prints at most one message; over a whole run the ledger only
      grows. */
  function RunProgram(w: World, input: seq<string>, env: Env): (r: Run)
    ensures w.ledger <= r.world.ledger
    ensures |r.messages| <= |input|
    ensures r.why == Exited <==> |r.messages| > 0 && r.messages[|r.messages| - 1] == Farewell
    decreases |input|
  {
    match Step(w, input, env)
    case Stop(w', why) => Run(w', if why == Exited then [Farewell] else [], why)
    case Next(w', m, rest) =>
      var tail := RunProgram(w', rest, env);
      Run(tail.world, [m] + tail.messages, tail.why)
  }

  /** Choosing 6 prints the farewell and ends the program at once, with nothing changed. */
  lemma ExitEndsRun(w: World, input: seq<string>, env: Env)
    requires |input| > 0 && MenuChoice(input[0], env.parseInt) == 6
    ensures RunProgram(w, input, env) == Run(w, [Farewell], Exited)
  {
    assert ActionOf(MenuChoice(input[0], env.parseInt)) == Exit;
    assert Step(w, input, env) == Stop(w, Exited);
  }

  /** Every entry satisfies the interactive invariant. */
  predicate AllAdmissible(ledger: seq<Transaction>) {
    forall i | 0 <= i < |ledger| :: Admissible(ledger[i])
  }

  lemma AppendKeepsAdmissible(ledger: seq<Transaction>, t: Transaction)
    requires AllAdmissible(ledger) && Admissible(t)
    ensures AllAdmissible(ledger + [t])
  {
    var ledger' := ledger + [t];
    forall i | 0 <= i < |ledger'|
      ensures Admissible(ledger'[i])
    {
      if i < |ledger| {
        assert ledger'[i] == ledger[i];
      }
    }
  }

  /** Every round other than a load keeps the interactive invariant: only loaded entries
      can have a non-positive amount or a category outside their kind's list. */
  lemma StepKeepsAdmissible(w: World, input: seq<string>, env: Env)
    requires AllAdmissible(w.ledger)
    requires |input| > 0 && !ActionOf(MenuChoice(input[0], env.parseInt)).LoadFile?
    ensures AllAdmissible(Step(w, input, env).world.ledger)
  {
    var action := ActionOf(MenuChoice(input[0], env.parseInt));
    var r := Step(w, input, env);
    if action.AddIncome? || action.AddExpense? {
      var income := action.AddIncome?;
      assert r == AddEntry(w, input[1..], env, income);
      if r.Next? {
        var e := ReadEntry(input[1..], env, KindCategories(income), income).value;
        assert Admissible(e.entry);
        AppendKeepsAdmissible(w.ledger, e.entry);
      }
    } else {
      assert r.world.ledger == w.ledger;
    }
  }

  /** An added entry's category comes from one of the two lists, so it holds no comma. */
  lemma AddKeepsCommaFree(w: World, input: seq<string>, env: Env, income: bool)
    requires Csv.CategoriesCommaFree(w.ledger)
    ensures Csv.CategoriesCommaFree(AddEntry(w, input, env, income).world.ledger)
  {
    var read := ReadEntry(input, env, KindCategories(income), income);
    if read.Some? {
      var e := read.value;
      Categories.ListsCommaFree();
      assert CommaFree(e.entry.category);
      Csv.AppendKeepsCommaFree(w.ledger, e.entry);
    }
  }

  /** A loaded category is a field of `split(",")`, so it holds no comma. */
  lemma LoadFlowKeepsCommaFree(w: World, input: seq<string>, env: Env)
    requires Csv.CategoriesCommaFree(w.ledger)
    ensures Csv.CategoriesCommaFree(LoadFlow(w, input, env).world.ledger)
  {
    if PathLine(input) < |input| {
      var path := Trim(input[PathLine(input)]);
      Csv.LoadKeepsCommaFree(w.ledger, path, FileAt(w, path),
                             Csv.Readers(env.parseLoadDate, env.parseAmount));
    }
  }

  /** Every menu round keeps every category comma-free: a typed category comes from one
      of the two lists, and a loaded one is a field of `split(",")`. */
  lemma StepKeepsCommaFree(w: World, input: seq<string>, env: Env)
    requires Csv.CategoriesCommaFree(w.ledger)
    ensures Csv.CategoriesCommaFree(Step(w, input, env).world.ledger)
  {
    if |input| > 0 {
      var action := ActionOf(MenuChoice(input[0], env.parseInt));
      if action.AddIncome? || action.AddExpense? {
        AddKeepsCommaFree(w, input[1..], env, action.AddIncome?);
      } else if action.LoadFile? {
        LoadFlowKeepsCommaFree(w, input[1..], env);
      }
    }
  }

  /** Over a whole run, every category stays comma-free. In particular every ledger the
      program reaches from an empty one meets the comma-free condition of
      `SavedFileLoadsBack`. */
  lemma {:induction false} RunKeepsCommaFree(w: World, input: seq<string>, env: Env)
    requires Csv.CategoriesCommaFree(w.ledger)
    ensures Csv.CategoriesCommaFree(RunProgram(w, input, env).world.ledger)
    decreases |input|
  {
    StepKeepsCommaFree(w, input, env);
    match Step(w, input, env)
    case Stop(_, _) =>
    case Next(w', _, rest) => RunKeepsCommaFree(w', rest, env);
  }
}

=== FILE: transactions.dfy ===
/** One ledger entry. In the source it is an immutable class with four final fields, a
    constructor that stores its arguments unchecked, and four getters; here it is a
    datatype whose destructors are the getters. */
module Transactions {
  import opened Dates
  import Categories

  /** `amount` is in cents. */
  datatype Transaction = Transaction(date: Date, amount: int, category: string, isIncome: bool)

  /** The invariant the interactive add flows establish: a positive amount and a category
      from the list that matches the entry's kind. Nothing in the constructor enforces it. */
  predicate Admissible(t: Transaction) {
    && t.amount > 0
    && t.category in (if t.isIncome then Categories.Income else Categories.Expense)
  }

  /** Construction stores every argument unchanged, accepts any amount and category, and
      entries with equal fields are the same value: there is no identity beyond the fields. */
  lemma ConstructionIsPlainStorage(date: Date, amount: int, category: string, isIncome: bool,
                                   other: Transaction)
    ensures var t := Transaction(date, amount, category, isIncome);
            && t.date == date && t.amount == amount
            && t.category == category && t.isIncome == isIncome
            && (t == other <==> (other.date == date && other.amount == amount
                                 && other.category == category && other.isIncome == isIncome))
  {
  }

  /** The constructor does not enforce the interactive invariant: a zero amount or an
      unknown category still makes a transaction. */
  lemma ConstructionDoesNotValidate(date: Date, category: string, isIncome: bool)
    requires category !in Categories.Income && category !in Categories.Expense
    ensures !Admissible(Transaction(date, 0, category, isIncome))
    ensures !Admissible(Transaction(date, 1, category, isIncome))
  {
  }
}

=== FILE: wrappers.dfy ===
/** The optional value used wherever the tracker's library calls may fail
    (a parse that throws, a lookup that finds nothing). */
module Wrappers {

  datatype Option<+T> = None | Some(value: T) {

    /** The carried value, or `default` when there is none. */
    function GetOr(default: T): T {
      match this
      case Some(v) => v
      case None => default
    }
  }
}
